=== FILE: README.md ===
# Face-scoring client: request builders and answer normalisation in Dafny

This project models the browser client of Grok-FaceBeauty. It covers the
score button's path through the client: the checks made before a request,
the request built from the photos and the form, and how the model's
answer is recovered. From the loosely shaped JSON answer it models what the
results panel draws: the overall total, per-image totals, bucket means,
radar series, the detail table and the protocol lists. It also models which
error panel each failure shows.

Two source files are modelled:
- `app-v2.js`: the key check, `b64`, `buildContents`, `callGemini`,
  `bucketAverages`, the ordering and reading of `renderTable`, `scale100`,
  `fillProtocol`, `renderAll` and the score flow;
- `prompt-patch-v1.js`: `buildInstructionInline`, `buildPromptJSON` and
  `buildScoringContents`.

The JavaScript values the client reads are modelled by the datatype
`JsValue.JValue`:
- an object is its ordered list of entries, so `Object.entries` order is kept;
- `?.`, `||` and `??` are `Get`, `Or` and `Coalesce`.

Three effects become parameters:
- `JSON.parse` is a `Parser` that yields a value or an exception text;
- `JSON.stringify` is a `Stringifier`;
- the network exchange is a function from the request to a `Transport`:
  a non-ok status with its body, a rejected fetch, or the answer's joined
  text.

Every exception the handler can catch is a `Gemini.Fault`. It carries the
text `String(err)` gives, because that text alone decides the error panel.

Modules follow the program's structure:
- `Wrappers`, `Strings` and `JsValue` hold the language layer;
- `Rubric`, `Score`, `Buckets`, `Totals`, `Table` and `Render` hold the
  answer normalisation;
- `Credential`, `Photos`, `Gemini` and `Prompt` hold request building and
  answer recovery;
- `Flow` holds the click handler.

Points of the code's behaviour that the model keeps:
- `renderAll` can throw: when there is no total to format, when a per-image
  item is `null`, or when a protocol field is truthy but not an array. The
  handler catches these exceptions and shows the model-output panel.
- The exception texts are those of Chromium's V8 engine. Other engines word
  them differently, and none of the wordings holds a panel marker.
- A parse error of the recovered brace candidate is routed by its text like
  any other exception, so an answer the parser quotes can reach any panel.
- Image parts are written `{inline_data: {mime_type, data}}`.
- The age field falls back to `'30'` only when it is empty; a non-numeric
  age reaches `parseInt` and becomes NaN.
- A fetch rejected before any response names no HTTP status, so it shows the
  model-output panel.
- No per-criterion score is clamped to the range 1-5.
- The table is sorted with the comparator as written; the per-image totals
  are computed as written, so an item without a total shows -25.

## Model

| member | source | states |
|---|---|---|
| Strings.Trim | app-v2.js:331 | the trimmed key field has no white space at either end and is the part of the field that only white space surrounds |
| Strings.TrimIdempotent | app-v2.js:65 | trimming the already trimmed key again inside `validateKey` changes nothing |
| Strings.IndexOf | app-v2.js:70 | the first position of the character, or -1 exactly when it is absent |
| Strings.LastIndexOf | app-v2.js:143 | the last position of the character: no later position holds it |
| Strings.Slice | app-v2.js:143 | `slice` with bounds in range is the sub-sequence, and with the end before the start it is empty |
| Strings.JoinAppend | prompt-patch-v1.js:24 | joining two non-empty runs of lines puts exactly one separator between their joined texts |
| Strings.NatToStringRoundTrip | app-v2.js:139 | the decimal text of the HTTP status reads back as the status |
| Strings.NatToStringInjective | app-v2.js:184 | distinct array indices have distinct keys |
| Strings.LexLeTotal | app-v2.js:196 | any two codes are comparable in string order |
| Strings.LexLeTransitive | app-v2.js:196 | string order is transitive |
| Strings.LexLeAntisymmetric | app-v2.js:196 | codes ordered both ways are equal |
| JsValue.Lookup | app-v2.js:199 | reading a key finds the first entry with that key, and `undefined` when none has it |
| JsValue.OrLaws | app-v2.js:307 | `\|\|` yields one of its operands, is truthy exactly when one operand is, and a chain of `\|\|` means the same however it is grouped |
| JsValue.CoalesceLaws | app-v2.js:300 | `??` yields one of its operands, is nullish exactly when both are, and a chain of `??` means the same however it is grouped |
| JsValue.IndexKeysStartWithDigit | app-v2.js:184-186 | every key of an array or string answer starts with a digit |
| Rubric.Rank | app-v2.js:195 | each bucket's place in the table order is below 5 and names that bucket in the order P, D, S, Y, O |
| Rubric.BucketOf | app-v2.js:186 | a code is in the bucket named by its first character, and in none when that character is not a bucket letter |
| Rubric.StartsWithLetterIffBucket | app-v2.js:312 | the radar's `startsWith(letter)` picks exactly the codes `bucketAverages` puts in that bucket |
| Rubric.DigitCodeInNoBucket | app-v2.js:186 | an index key is counted in no bucket |
| Rubric.RubricShape | app-v2.js:73-84 | the rubric has twenty criteria with distinct codes, four per bucket, in display order |
| Rubric.NameIn | app-v2.js:85 | a name is found exactly when some criterion has the code, and the name found is that criterion's |
| Rubric.FriendlyNameOfRubric | app-v2.js:85 | every rubric code maps to its rubric name, and codes outside the rubric map to nothing |
| Score.FirstField | app-v2.js:185 | the first field that passes the test: every earlier field fails it, and none passes when there is no result |
| Score.ResolveScore | app-v2.js:185 | a bare number is its own score; otherwise the score is the first numeric field among `score`, `value` and `avg`, and there is none when no such field is numeric |
| Score.ResolveScoreAgreesWithChains | app-v2.js:202-206 | the field-list reading agrees on every value with the chains written out in `bucketAverages`, `renderAll` and `renderTable` |
| Score.ScoreShapesAgree | app-v2.js:287 | a number and an object holding it under `score`, `value` or `avg` resolve alike |
| Score.ScoreFieldPriority | app-v2.js:185 | a non-numeric earlier field is skipped, and a numeric earlier field wins regardless of entry order |
| Score.UnresolvableValues | app-v2.js:287-288 | strings, booleans, `null`, arrays and objects without a numeric score field have no score |
| Score.DisplayName | app-v2.js:200 | the label is the value's own truthy name, else the rubric's name for the code, else the code |
| Score.DisplayNameFromRubric | app-v2.js:200 | a criterion without its own name is labelled with its rubric name |
| Score.Rationale | app-v2.js:209 | the rationale is the first truthy field of `rationale_140`, `why` and `rationale`, or empty exactly when none is truthy |
| Score.Tips | app-v2.js:230-233 | four tips, one per expert role in display order, each the role's truthy tip or the dash |
| Buckets.SumBounds | app-v2.js:188 | a sum of values in `[lo, hi]` lies between the count times `lo` and the count times `hi` |
| Buckets.MeanBounds | app-v2.js:188 | the mean of values in `[lo, hi]` lies in `[lo, hi]` |
| Buckets.MeanConst | app-v2.js:188 | the mean of equal values is that value |
| Buckets.ScoresIn | app-v2.js:184-186 | a bucket's group has at most one score per entry |
| Buckets.ScoresInMembers | app-v2.js:184-186 | a score is in a bucket's group exactly when some entry of that bucket resolves to it |
| Buckets.ScoresInIgnores | app-v2.js:186 | an entry outside the bucket or without a score leaves the bucket's group unchanged |
| Buckets.Average | app-v2.js:188 | the running sum divided by the count is the mean of the group |
| Buckets.GroupScores | app-v2.js:183-187 | after the pass, each of the five lists holds exactly its bucket's resolved scores, in entry order |
| Buckets.BucketAverages | app-v2.js:182-190 | the one-pass grouping loop returns, for all five buckets, the mean of exactly that bucket's resolved scores |
| Buckets.RadarPoints | app-v2.js:311-316 | a bucket's radar has at most one point per entry |
| Buckets.RadarPointsMembers | app-v2.js:311-316 | a point is on a bucket's radar exactly when some entry whose code starts with the bucket's letter contributes it |
| Buckets.RadarMatchesAverage | app-v2.js:308-316 | when every criterion of a bucket resolves, the radar plots exactly the scores the bucket mean averages, in order |
| Buckets.RadarPlotsUnresolvedAtZero | app-v2.js:314 | an unresolvable criterion adds a point at 0 to its radar but nothing to its bucket mean |
| Totals.ScaleCorrespondence | app-v2.js:290 | the 1-5 and 0-100 scales correspond one to one and in order: 1 is 0, 3 is 50, 5 is 100 |
| Totals.ResolvedScores | app-v2.js:286-288 | no more resolved scores than values |
| Totals.ResolvedScoresMembers | app-v2.js:286-288 | a score is among the resolved scores exactly when some criterion value resolves to it |
| Totals.OverallTotal | app-v2.js:283-291 | a numeric explicit total is used unchanged; otherwise a total exists exactly when there is a top-level `per_criterion`, and it stands for the mean of the resolved scores, or 3 when none resolves |
| Totals.TotalWithoutScores | app-v2.js:289-290 | with no explicit total and no resolvable score the total is 50 |
| Totals.TotalWithinScale | app-v2.js:289-290 | scores within 1-5 give a total within 0-100 |
| Totals.TotalOfUniformScores | app-v2.js:286-290 | criteria that all score `c` give the total `c` on 0-100, so all fives give 100 |
| Totals.TotalIgnoresAggregateScores | app-v2.js:283-285 | scores only under `aggregate.per_criterion` give no total |
| Totals.Scale100 | app-v2.js:273 | non-numbers have no value; a number above 5.0001 is kept; a number up to the threshold is read as a 1-5 score, so 1-5 lands in 0-100 |
| Totals.Scale100Examples | app-v2.js:273 | 4.5 reads as 87.5, 87.5 stays 87.5, 5 reads as 100, 0 reads as -25, and a numeric string has no value |
| Totals.Scale100NotMonotone | app-v2.js:273 | 5.0001 reads higher than 5.0002 |
| Totals.PerImageRaw | app-v2.js:300 | the first of `total_weighted`, `total` and `avg` that is not nullish, else 0 |
| Totals.MissingPerImageTotalShowsMinus25 | app-v2.js:300-302 | as written, an image item with no total shows -25 |
| Totals.MissingPerImageTotalExample | app-v2.js:300-302 | the item `{pose: "front"}` shows -25 as written |
| Totals.PerImageTotal | app-v2.js:300-302 | the corrected half of the finding below: an item with no total shows 0, an item with a total shows what `renderAll` shows, and a 1-5 total lands in 0-100 |
| Table.LexCompare | app-v2.js:196 | the comparison is 0 exactly for equal codes and negative exactly when the first comes before the second in string order |
| Table.CompareAsWrittenNotTransitive | app-v2.js:195-196 | as written, S1 before O1, O1 before Q1 and Q1 before S1 all hold |
| Table.CodeRank | app-v2.js:195 | a bucket code ranks by its bucket; ranking every other code last belongs to the corrected order of the finding below, since as written such a code has no rank and the difference is NaN |
| Table.CodeLeTotal | app-v2.js:196 | any two codes are comparable in table order |
| Table.CodeLeTransitive | app-v2.js:196 | table order is transitive |
| Table.CodeLeAntisymmetric | app-v2.js:196 | codes ordered both ways in table order are equal |
| Table.CompareAsWrittenAgrees | app-v2.js:195-196 | on bucket codes the comparator as written and the table order agree, both for "before" and for "equal" |
| Table.WrittenLeTotal | app-v2.js:196 | the comparator as written makes any two codes comparable |
| Table.WrittenLeAntisymmetric | app-v2.js:196 | two codes the comparator as written allows each before the other are the same code |
| Table.WrittenLeOnBuckets | app-v2.js:195-196 | on bucket codes the comparator as written allows exactly the corrected table order |
| Table.CodeLeOrders | app-v2.js:195-196 | the corrected table order is a total order on any set of codes |
| Table.BucketCodesOrderedAsWritten | app-v2.js:195-196 | on codes of the five buckets the comparator as written is a total order |
| Table.WrittenLeNotAnOrder | app-v2.js:195-196 | with S1, O1 and Q1 the comparator as written is no order at all |
| Table.UnknownCodeComparesByString | app-v2.js:195-196 | as written A1 comes before P1 by string order, where the corrected order puts P1 first |
| Table.InsertBy | app-v2.js:196 | insertion adds exactly the one entry, for any comparator |
| Table.InsertBySorted | app-v2.js:196 | inserting into sorted entries keeps them sorted whenever the comparator orders their codes |
| Table.SortBy | app-v2.js:196 | sorting yields a permutation of the entries, for any comparator |
| Table.SortBySorted | app-v2.js:196 | the sorted entries follow the comparator whenever it orders their codes |
| Table.DistinctCodesPermutation | app-v2.js:196 | a reordering of entries with distinct codes keeps the codes distinct |
| Table.UnknownCodeSortsByString | app-v2.js:195-196 | sorted as written, `{P1, A1}` becomes A1 then P1; sorted in the corrected order, P1 then A1 |
| Table.SortedPermutationUnique | app-v2.js:196 | any two arrangements of the same entries with distinct codes that follow one order of their codes are identical, so every correct sort gives the same rows |
| Table.MakeRow | app-v2.js:199-211 | a row carries its code, the criterion's display name (its own `name` or the friendly name), its resolved score, its rationale and four tips |
| Table.TableRows | app-v2.js:193-211 | one row per criterion, each the row of some criterion, and every criterion has its row; the rows follow the comparator as written whenever it orders the codes, and the table order when every code lies in a bucket |
| Table.SortedAsWritten | app-v2.js:196 | the entries sorted as written follow the comparator when it orders their codes, and the table order when all codes lie in buckets |
| Table.TableRowsMatchTableOrder | app-v2.js:193-198 | with distinct bucket codes only, the rows as written are exactly the rows in the corrected table order |
| Table.UnknownCodeRowFirst | app-v2.js:193-198 | the table of `{P1, A1}` shows the A1 row first |
| Table.RowsOfReordering | app-v2.js:196-198 | the rows of any reordering are one per entry, each carrying the code at its place, each the row of some entry, and every entry has its row |
| Credential.StripQuotes | app-v2.js:65 | at most one quote is removed from each end, and only quotes are removed |
| Credential.StripQuotesUnwraps | app-v2.js:65 | a value wrapped in one quote at each end, matching or not, loses exactly those two quotes |
| Credential.StripQuotesKeepsUnquoted | app-v2.js:65 | a value with no quote at either end is unchanged |
| Credential.StripQuotesLoneQuote | app-v2.js:65 | a lone quote is removed entirely |
| Credential.MatchKeyShape | app-v2.js:67 | the left-to-right scan accepts exactly the values of the key pattern |
| Credential.KeyShapeIsNoUrl | app-v2.js:66-67 | no value of the key pattern starts with a URL scheme, so the URL test never rejects a well-shaped key |
| Credential.UrlHasNoKeyShape | app-v2.js:66-67 | a value the URL test rejects never has the key pattern, so the rejection loses no key |
| Credential.ValidateKey | app-v2.js:63-68 | an absent or empty value fails; any other passes exactly when its trimmed, unquoted form has the key pattern, and a passing value is never a URL |
| Credential.ValidateKeyAcceptsWrappedKey | app-v2.js:63-67 | a well-shaped key padded with spaces and wrapped in quotes passes |
| Credential.BareValueWithoutPrefixFails | app-v2.js:67 | a bare value not starting with `A` fails |
| Credential.ValidateKeyRejectsUrl | app-v2.js:66 | a key behind `https://` fails |
| Credential.ValidateKeyRejectsShortKey | app-v2.js:67 | fewer than twenty key characters after the prefix fail |
| Credential.ValidateKeyPrefixIsCaseSensitive | app-v2.js:67 | the lower-case prefix `aiza` fails |
| Photos.SelectPhotos | app-v2.js:103 | at most five files are kept, each at its position, and all of them when there are five or fewer |
| Photos.SelectPhotosStable | app-v2.js:103 | selecting twice equals selecting once, and files after the fifth change nothing |
| Photos.B64 | app-v2.js:70 | the text after the first comma, or the whole value when there is no comma |
| Photos.B64RoundTrip | app-v2.js:70 | a data URL's payload comes back exactly, commas in it included |
| Photos.B64IdempotentWithoutComma | app-v2.js:70 | a value without a comma is its own payload |
| Photos.ImagePart | app-v2.js:128 | the image part carries the file type, or `image/jpeg` when there is none, and the photo's payload |
| Photos.ImagePartCarriesPayload | app-v2.js:128 | a photo read as `data:<type>;base64,<payload>` is sent with exactly its payload |
| Gemini.HttpErrorText | app-v2.js:139 | the error text starts with `HTTP ` and the status digits, followed by `: ` and the body exactly when the body is non-empty |
| Gemini.BraceCandidate | app-v2.js:143 | with both braces present, the candidate runs from the first `{` to the last `}`, or is empty when the last `}` comes first; without one of them there is none |
| Gemini.BraceCandidateOfWrapped | app-v2.js:143 | an object between prose with no `{` before and no `}` after is exactly the candidate |
| Gemini.Recover | app-v2.js:142-145 | the data recovered is always truthy; a whole-text parse wins; otherwise the candidate's parse, whose failure propagates; a missing candidate or a falsy value is the no-JSON error |
| Gemini.RecoverWholeObject | app-v2.js:143 | an answer that parses whole as an object is returned unchanged |
| Gemini.RecoverWrappedObject | app-v2.js:143 | an object wrapped in prose is recovered from between its braces |
| Gemini.RecoverWithoutBraces | app-v2.js:143-144 | unparsable text lacking a brace is the no-JSON error |
| Gemini.RecoverRejectsFalsy | app-v2.js:144 | a falsy answer such as `0` or `null` is the no-JSON error |
| Gemini.WrappedInNothing | app-v2.js:143 | an object with no prose around it is its own candidate |
| Gemini.RecoverUnparsedCandidate | app-v2.js:142-143 | an answer that is its own candidate and does not parse throws the parser's error, whose text is the one shown |
| Gemini.EmptyObjectUnparsed | app-v2.js:141-143 | the answer `{}`, when the parser rejects it, throws the parser's error |
| Prompt.SepIsBackslashN | prompt-patch-v1.js:24 | the line separator is a backslash and `n`, not a line break |
| Prompt.GoalsOrEmpty | prompt-patch-v1.js:10 | always a list: the goals themselves when they are a list, and the empty list otherwise |
| Prompt.InstructionLines | prompt-patch-v1.js:11-23 | eleven lines, the goals line ninth, between the eight fixed lines before it and the two after |
| Prompt.JoinAround | prompt-patch-v1.js:24 | the joined instruction text is the fixed head, the goals text and the fixed tail |
| Prompt.BuildInstructionInline | prompt-patch-v1.js:9-25 | the instruction text depends on the goals only through the JSON of the goals list |
| Prompt.InstructionIgnoresNonArrayGoals | prompt-patch-v1.js:10 | goals that are not a list give the same text as no goals |
| Prompt.PromptInputs | prompt-patch-v1.js:32-38 | sex and age are copied; ethnicity defaults to empty, region to `US` and goals to the empty list when missing |
| Prompt.ScoringInputs | prompt-patch-v1.js:54-60 | the inputs copy sex, age, ethnicity and region from the parameters, and the goals when they are a list |
| Prompt.ShellInputsOfParams | prompt-patch-v1.js:54-61 | the shell of the scoring turn carries the parameters' sex and age, their ethnicity or `""`, their region or `US`, and their goals when they are a list |
| Prompt.BuildPromptJSON | prompt-patch-v1.js:28-49 | the shell carries version 1.0, the instruction text for the goals, the defaulted inputs, the rubric and the answer schema |
| Prompt.PromptDefaults | prompt-patch-v1.js:35-37 | an empty region and missing ethnicity and goals are sent as `US`, empty and the empty list |
| Prompt.UserTurn | prompt-patch-v1.js:73 | a single user turn carrying the parts |
| Prompt.BuildScoringContents | prompt-patch-v1.js:52-79 | one user turn: the image parts copied in order then one text part; when `params` is nullish, only a text part describing the error |
| Prompt.ScoringContentsOrder | prompt-patch-v1.js:63-73 | every image part precedes the one text part, in the original order, and the text starts with the header and the separator |
| Prompt.ScoringContentsWithoutImages | prompt-patch-v1.js:70 | image parts that are not a list are dropped |
| Render.ChartCriteria | app-v2.js:307 | the criteria used for charts are always truthy: the aggregate's criteria when those are truthy, else the top-level criteria when those are truthy, else the empty object |
| Render.ImageLines | app-v2.js:298-303 | drawing succeeds exactly when no item is nullish; then there is one line per item with its total as `renderAll` computes it and its pose or `unknown`; otherwise the error names the first nullish item |
| Render.ImageLineWithoutTotal | app-v2.js:299-302 | an item `{pose: "front"}` is drawn as -25 with pose `front` |
| Render.ProtocolLines | app-v2.js:274-277 | a falsy field gives no lines, a list gives one line per item with strings shown as is, and any other truthy value throws |
| Render.Normalize | app-v2.js:280-325 | fails only with one of the exceptions `renderAll` can throw, and fails with the `toFixed` error exactly when there is no total; with a total, a failing per-image list decides the failure, and with per-image lines a failing protocol field decides it; on success the result is `Render.Assemble` of its total, its per-image lines (those of `Render.ImageLines`) and its protocol lists (those of `Render.Protocols`), with the total, the bucket means, the table rows, the percentile and the dynamics flag coming from the answer |
| Render.Draw | app-v2.js:298-324 | after the total, the per-image lines are drawn before the protocol lists and the first failure decides the exception, which is never the `toFixed` one; on success the result is `Render.Assemble` of those lines and lists |
| Render.Protocols | app-v2.js:320-322 | the three protocol fields are filled in order; the lists succeed exactly when every field's lines succeed, each list is that field's lines, and the first failing field gives the `forEach` error |
| Render.ToFixedTextDistinct | app-v2.js:291-300 | the `toFixed` error text differs from every other text `renderAll` can throw |
| Render.Assemble | app-v2.js:294-324 | the drawn parts take the chosen criteria's charts, radar series and table, a percentile exactly when one is numeric, the provisional mark exactly when `percentile.provisional` is truthy, and the dynamics note exactly when `data_needed` is a non-empty list |
| Render.UniformBucketMeans | app-v2.js:182-190 | criteria that all score `c` give mean `c` for every bucket that holds one |
| Render.PlainAnswerRenders | app-v2.js:292-322 | an answer with a total, no per-image list and no protocol always renders |
| Render.NormalizeUniformScores | app-v2.js:283-292 | an answer whose top-level criteria all score `c` renders with the total `c` on 0-100 |
| Render.UniformTotal | app-v2.js:285-290 | top-level criteria that all score `c` give the total `c` on 0-100 |
| Render.UniformChartMeans | app-v2.js:307-308 | top-level criteria that all score `c` put `c` on every bucket chart that holds a criterion |
| Flow.RouteWithoutMarkers | app-v2.js:349-352 | a text without `A` and `H` shows the model-output panel |
| Flow.RouteHttpFailure | app-v2.js:349-352 | a non-ok response never shows the model-output panel; it shows the key panel exactly when its body carries a key marker, and the network panel otherwise |
| Flow.HttpParseErrorShowsNetwork | app-v2.js:349-352 | an exception text that quotes `HTTP` and carries no key marker shows the network panel |
| Flow.RenderErrorsShowModelPanel | app-v2.js:349-352 | every exception `renderAll` throws shows the model-output panel |
| Flow.NoJsonShowsModelPanel | app-v2.js:144 | an answer with nothing to recover shows the model-output panel |
| Flow.RejectedFetchShowsModelPanel | app-v2.js:349-352 | a fetch rejected before any response shows the model-output panel |
| Flow.Gate | app-v2.js:330-333 | no photos first, then an empty key field, then a key failing the check; the request goes out exactly when the trimmed, unquoted key has the key pattern |
| Flow.ScoreParams | app-v2.js:335-341 | the parameters carry the sex, the age, the trimmed ethnicity, the region and no goals |
| Flow.ScoreParamsReachShell | prompt-patch-v1.js:32-38 | the form reaches the prompt's inputs with the sex, the age, the trimmed ethnicity, the region or `US`, and no goals |
| Flow.BuildContents | app-v2.js:127-133 | one turn whose parts are the photos' image parts, in order and each with its photo's payload, then one text part |
| Flow.Attempt | app-v2.js:344-352 | the request carries the key and the built contents; a non-ok response shows the key panel exactly when its body names the key and the network panel otherwise; a rejected fetch shows the panel its error text names; a delivered answer is concluded |
| Flow.Conclude | app-v2.js:346-352 | a recovery that throws shows the panel its exception text names, which for nothing to recover is the model-output panel; an answer that cannot be drawn shows the model-output panel; an answer that can be drawn is drawn |
| Flow.UnparsedCandidateShowsNetwork | app-v2.js:346-352 | an answer whose brace candidate fails to parse with an error quoting `HTTP` shows the network panel |
| Flow.ScoreClickAsWritten | app-v2.js:328-357 | refused exactly when a check fails, with that check's panel; otherwise the trimmed field is sent as the key |
| Flow.ScoreClick | app-v2.js:328-357 | refused exactly when a check fails, with that check's panel; otherwise the validated key is sent, which always has the key pattern |
| Flow.QuotedKeyPasses | app-v2.js:331-333 | a well-shaped key in quotes passes every check, though the quoted text itself lacks the key pattern |
| Flow.QuotedKeySentWithQuotes | app-v2.js:331-345 | as written, a quoted key passes the checks and is then sent with its quotes, which is not a key |
| Flow.QuotedKeySentUnquoted | app-v2.js:331-345 | with the corrected handler, the same quoted key is sent without its quotes |

## Left out

- The DOM, the styling, the thumbnails and the busy overlay are left out: the model gives the data drawn, not how it is drawn.
- Chart.js drawing and the bell curve of `renderBell` are left out; only the data handed to the charts is modelled.
- Reading files runs asynchronously through `FileReader`, and its completion order is not modelled. The photos are taken in selection order.
- `fetch`, `res.json()` and the extraction of the text parts are not modelled. The exchange is a parameter that yields the joined answer text.
- The endpoint URL and `encodeURIComponent` are not modelled: the request carries the key itself.
- The request's `generationConfig` is not modelled.
- `JSON.parse` and `JSON.stringify` are opaque parameters; JSON syntax is not modelled.
- `parseInt` of the age field is not modelled: the age is taken as already parsed.
- Storing the key in `localStorage`, the clipboard export and the show/hide buttons of the tips are left out: they are browser effects.
- `toFixed` formatting is not modelled: totals are exact reals.
- NaN and infinities never come out of `JSON.parse`, so the NaN guard of `scale100` is not modelled.
- `FRIENDLY_NAME` is a plain object, so a code such as `constructor` would read an inherited property. Such prototype keys are not modelled.
- Strings are sequences of characters, not UTF-16 code units.
- `localeCompare` is modelled as plain character order.
- Concurrent clicks are not modelled: one click is one function call.
- The rubric sent with the request is passed to `Flow.BuildContents` as a JSON value. The criteria of `unifiedRubric()` are modelled separately as `Rubric.Criteria`.
- Render.Normalize: the percentile value, the provisional mark and the radar series are stated through its link to `Render.Assemble` and not as clauses of its own; the points each bucket's radar series holds are stated by `Buckets.RadarPointsMembers`, not by `Render.Assemble`.
- Flow.Conclude: a failed click carries only its panel. `renderAll` draws as it goes: it un-hides the results (app-v2.js:281) and writes the total (line 292) before a `null` per-image item throws (line 300); before a protocol field throws (lines 320-322) it has drawn the percentile, the per-image lines, the charts, the table and the earlier protocol lists; and a `toFixed` failure leaves the previous answer's results on view. That partial view beside the error panel is not modelled.
- Render.Normalize: a failure returns only the exception, not the parts `renderAll` drew before throwing (see `Flow.Conclude` above).
- Table.TableRows: when a code outside the five buckets makes the comparator as written no order (S1, O1 and Q1, say), the browser's order is left to its sort routine; the model's rows then follow its insertion sort, and the contract promises only that every criterion has exactly its row.
- JsValue.Lookup: objects are lists of members, and the values the `Parser` yields are taken to have distinct keys, as `JSON.parse` objects do. With a repeated key `JSON.parse` keeps the last value, whereas `Lookup` would read the first and `Entries` would list both.
- Render.NormalizeUniformScores: states only the total of a uniform answer. The bucket means of the same answer are stated by `Render.UniformChartMeans`.

## Findings

| source | as written | input that shows it | evidently intended | confidence | as-written member | corrected member |
|---|---|---|---|---|---|---|
| app-v2.js:331-345 | the key is checked after its quotes are stripped, but the trimmed field, quotes included, is sent | the field `"AIza` followed by twenty key characters and `"` | send the key that passed the check | high, not executed | Flow.QuotedKeySentWithQuotes | Flow.ScoreClick |
| app-v2.js:300-302 | an image item with no total gets `?? 0`, which `scale100` reads as a 1-5 score, so it shows -25 | `{pose: "front"}` | a missing total shows 0, the fallback that `(v \|\| 0)` provides | high, not executed | Totals.MissingPerImageTotalShowsMinus25 | Totals.PerImageTotal |
| app-v2.js:195-196 | for a code outside the five buckets the rank difference is NaN, so the comparator falls back to string order and is not transitive | the codes `S1`, `O1`, `Q1` | one total order that keeps the bucket ranks; placing unknown codes after the bucket codes is one such order | medium, not executed | Table.CompareAsWrittenNotTransitive | Table.CodeLeTransitive |

=== FILE: buckets.dfy ===
/** Bucket aggregation (app-v2.js, `bucketAverages` and the per-bucket radar
    series of `renderAll`): the resolved criterion scores grouped by the
    first character of their code, and each group's mean. */
module Buckets {
  import opened Wrappers
  import opened Strings
  import opened JsValue
  import opened Rubric
  import opened Score

  /** One `[code, value]` pair of `Object.entries`. */
  type Entry = (string, JValue)

  /** The sum of `xs`, added left to right as `reduce((a, b) => a + b, 0)` does. */
  function Sum(xs: seq<real>): real
    decreases |xs|
  {
    if |xs| == 0 then 0.0 else Sum(xs[..|xs| - 1]) + xs[|xs| - 1]
  }

  /** The arithmetic mean of `xs`, and 0 when there are none. */
  function Mean(xs: seq<real>): real {
    if |xs| == 0 then 0.0 else Sum(xs) / (|xs| as real)
  }

  lemma {:induction false} SumBounds(xs: seq<real>, lo: real, hi: real)
    requires forall i :: 0 <= i < |xs| ==> lo <= xs[i] <= hi
    ensures (|xs| as real) * lo <= Sum(xs) <= (|xs| as real) * hi
    decreases |xs|
  {
    if |xs| > 0 {
      var init := xs[..|xs| - 1];
      SumBounds(init, lo, hi);
      var m := |init| as real;
      assert |xs| as real == m + 1.0;
      var x := xs[|xs| - 1];
      assert Sum(xs) == Sum(init) + x;
      assert lo <= x <= hi;
      var a, b := m * lo, m * hi;
      assert a <= Sum(init) <= b;
      assert (m + 1.0) * lo == a + lo;
      assert (m + 1.0) * hi == b + hi;
    }
  }

  /** The mean of values that all lie in `[lo, hi]` lies in `[lo, hi]`. */
  lemma MeanBounds(xs: seq<real>, lo: real, hi: real)
    requires |xs| > 0
    requires forall i :: 0 <= i < |xs| ==> lo <= xs[i] <= hi
    ensures lo <= Mean(xs) <= hi
  {
    SumBounds(xs, lo, hi);
    var n := |xs| as real;
    assert Sum(xs) / n >= (n * lo) / n == lo;
    assert Sum(xs) / n <= (n * hi) / n == hi;
  }

  /** The mean of values that are all `c` is `c`. */
  lemma MeanConst(xs: seq<real>, c: real)
    requires |xs| > 0
    requires forall i :: 0 <= i < |xs| ==> xs[i] == c
    ensures Mean(xs) == c
  {
    MeanBounds(xs, c, c);
  }

  /** `Object.entries(perCriterion || {})`. */
  function CriterionEntries(pc: JValue): seq<Entry> {
    Entries(Or(pc, JObj([])))
  }

  /** Whether an entry contributes to bucket `b`: its code is in the bucket and its value resolves. */
  predicate Counts(e: Entry, b: Bucket) {
    BucketOf(e.0) == Some(b) && ResolveScore(e.1).Some?
  }

  /** The resolved scores of the entries whose code is in bucket `b`, in entry order. */
  function ScoresIn(es: seq<Entry>, b: Bucket): (r: seq<real>)
    ensures |r| <= |es|
    decreases |es|
  {
    if |es| == 0 then []
    else
      var last := es[|es| - 1];
      ScoresIn(es[..|es| - 1], b) + (if Counts(last, b) then [ResolveScore(last.1).value] else [])
  }

  /** A score belongs to bucket `b`'s group exactly when some entry in the
      bucket resolves to it: entries of other buckets, entries whose code starts
      with any other character, and unresolvable entries are all left out. */
  lemma {:induction false} ScoresInMembers(es: seq<Entry>, b: Bucket, x: real)
    ensures x in ScoresIn(es, b) <==>
              exists i :: 0 <= i < |es| && Counts(es[i], b) && ResolveScore(es[i].1) == Some(x)
    decreases |es|
  {
    if |es| > 0 {
      var init := es[..|es| - 1];
      ScoresInMembers(init, b, x);
      assert forall i :: 0 <= i < |init| ==> init[i] == es[i];
    }
  }

  /** Extending a prefix of the entries by one entry extends the group by that entry's score, if it counts. */
  lemma ScoresInSnoc(es: seq<Entry>, i: nat, b: Bucket)
    requires i < |es|
    ensures ScoresIn(es[..i + 1], b)
            == ScoresIn(es[..i], b) + (if Counts(es[i], b) then [ResolveScore(es[i].1).value] else [])
  {
    assert es[..i + 1][..i] == es[..i];
  }

  /** Appending an entry that does not count for `b` leaves the bucket's group unchanged. */
  lemma ScoresInIgnores(es: seq<Entry>, e: Entry, b: Bucket)
    requires !Counts(e, b)
    ensures ScoresIn(es + [e], b) == ScoresIn(es, b)
  {
    assert (es + [e])[..|es|] == es;
  }

  /** `groups` holds, for each of the five buckets, exactly the bucket's scores among `es`. */
  ghost predicate Grouped(groups: map<Bucket, seq<real>>, es: seq<Entry>) {
    groups.Keys == AllBuckets && forall b :: b in groups ==> groups[b] == ScoresIn(es, b)
  }

  /** Pushing the next entry's score onto its bucket's group, when it counts, keeps the groups exact. */
  lemma GroupedSnoc(groups: map<Bucket, seq<real>>, es: seq<Entry>, i: nat)
    requires i < |es| && Grouped(groups, es[..i])
    ensures var e := es[i];
            var next := if BucketOf(e.0).Some? && ResolveScore(e.1).Some?
                        then groups[BucketOf(e.0).value := groups[BucketOf(e.0).value] + [ResolveScore(e.1).value]]
                        else groups;
            Grouped(next, es[..i + 1])
  {
    forall b | b in AllBuckets
      ensures ScoresIn(es[..i + 1], b)
              == ScoresIn(es[..i], b) + (if Counts(es[i], b) then [ResolveScore(es[i].1).value] else [])
    {
      ScoresInSnoc(es, i, b);
    }
  }

  /** The bucket means `bucketAverages` returns: one per bucket, each the mean
      of the bucket's resolved scores, 0 for a bucket without any. */
  function BucketMeans(pc: JValue): (r: map<Bucket, real>)
    ensures r.Keys == AllBuckets
    ensures forall b :: b in r ==> r[b] == Mean(ScoresIn(CriterionEntries(pc), b))
  {
    map b | b in AllBuckets :: Mean(ScoresIn(CriterionEntries(pc), b))
  }

  /** `arr.reduce((a, b) => a + b, 0) / arr.length`, or 0 for an empty array. */
  method Average(arr: seq<real>) returns (m: real)
    ensures m == Mean(arr)
  {
    if |arr| == 0 {
      return 0.0;
    }
    var acc := 0.0;
    var j := 0;
    while j < |arr|
      invariant 0 <= j <= |arr|
      invariant acc == Sum(arr[..j])
    {
      assert arr[..j + 1][..j] == arr[..j];
      acc := acc + arr[j];
      j := j + 1;
    }
    assert arr[..|arr|] == arr;
    m := acc / (|arr| as real);
  }

  /** The grouping pass of `bucketAverages`: each resolved score is pushed onto
      its bucket's list, in entry order; the five lists start empty. */
  method GroupScores(es: seq<Entry>) returns (groups: map<Bucket, seq<real>>)
    ensures Grouped(groups, es)
  {
    groups := map[P := [], D := [], S := [], Y := [], O := []];
    var i := 0;
    while i < |es|
      invariant 0 <= i <= |es|
      invariant Grouped(groups, es[..i])
    {
      var s := ResolveScore(es[i].1);
      var bk := BucketOf(es[i].0);
      GroupedSnoc(groups, es, i);
      if bk.Some? && s.Some? {
        groups := groups[bk.value := groups[bk.value] + [s.value]];
      }
      i := i + 1;
    }
    assert es[..|es|] == es;
  }

  /** `bucketAverages(perCriterion)`: the scores grouped by bucket, then the
      mean of each list. The result has exactly the five bucket keys, each
      holding its bucket's mean. */
  method BucketAverages(pc: JValue) returns (out: map<Bucket, real>)
    ensures out.Keys == AllBuckets
    ensures forall b :: b in out ==> out[b] == Mean(ScoresIn(CriterionEntries(pc), b))
  {
    var groups := GroupScores(CriterionEntries(pc));
    var mp := Average(groups[P]);
    var md := Average(groups[D]);
    var ms := Average(groups[S]);
    var my := Average(groups[Y]);
    var mo := Average(groups[O]);
    out := map[P := mp, D := md, S := ms, Y := my, O := mo];
  }

  /** One radar point: the criterion's label and its plotted score. */
  type Point = (JValue, real)

  /** The series of bucket `b`'s radar chart: every entry whose code starts
      with the bucket's letter, in entry order, labelled with its display name
      and plotted at its resolved score, or at 0 when it has none. */
  function RadarPoints(es: seq<Entry>, b: Bucket): (r: seq<Point>)
    ensures |r| <= |es|
    decreases |es|
  {
    if |es| == 0 then []
    else
      var last := es[|es| - 1];
      RadarPoints(es[..|es| - 1], b)
      + (if StartsWith(last.0, [Letter(b)]) then [PointOf(last)] else [])
  }

  /** The point an entry contributes to its bucket's radar. */
  function PointOf(e: Entry): Point {
    (DisplayName(e.0, e.1), ResolveScore(e.1).GetOr(0.0))
  }

  /** A point is on bucket `b`'s radar exactly when some entry whose code
      starts with the bucket's letter contributes it. */
  lemma RadarPointsMembers(es: seq<Entry>, b: Bucket, p: Point)
    ensures p in RadarPoints(es, b) <==>
            exists i :: 0 <= i < |es| && StartsWith(es[i].0, [Letter(b)]) && p == PointOf(es[i])
  {
    if p in RadarPoints(es, b) {
      RadarPointsSound(es, b, p);
    }
    if exists i :: 0 <= i < |es| && StartsWith(es[i].0, [Letter(b)]) && p == PointOf(es[i]) {
      var i :| 0 <= i < |es| && StartsWith(es[i].0, [Letter(b)]) && p == PointOf(es[i]);
      RadarPointsComplete(es, b, i);
    }
  }

  /** Every point on a radar comes from an entry of the bucket. */
  lemma {:induction false} RadarPointsSound(es: seq<Entry>, b: Bucket, p: Point)
    requires p in RadarPoints(es, b)
    ensures exists i :: 0 <= i < |es| && StartsWith(es[i].0, [Letter(b)]) && p == PointOf(es[i])
    decreases |es|
  {
    var init := es[..|es| - 1];
    var last := es[|es| - 1];
    var tail := if StartsWith(last.0, [Letter(b)]) then [PointOf(last)] else [];
    assert RadarPoints(es, b) == RadarPoints(init, b) + tail;
    if p in RadarPoints(init, b) {
      RadarPointsSound(init, b, p);
      var i :| 0 <= i < |init| && StartsWith(init[i].0, [Letter(b)]) && p == PointOf(init[i]);
      assert es[i] == init[i];
    } else {
      assert p in tail;
      assert StartsWith(es[|es| - 1].0, [Letter(b)]) && p == PointOf(es[|es| - 1]);
    }
  }

  /** Every entry of the bucket puts its point on the radar. */
  lemma {:induction false} RadarPointsComplete(es: seq<Entry>, b: Bucket, i: nat)
    requires i < |es| && StartsWith(es[i].0, [Letter(b)])
    ensures PointOf(es[i]) in RadarPoints(es, b)
    decreases |es|
  {
    var init := es[..|es| - 1];
    if i < |init| {
      assert init[i] == es[i];
      RadarPointsComplete(init, b, i);
      RadarPointsGrow(es, b);
    } else {
      LastPointOnRadar(es, b);
    }
  }

  /** The radar of a prefix of the entries is a prefix of the radar. */
  lemma RadarPointsGrow(es: seq<Entry>, b: Bucket)
    requires |es| > 0
    ensures forall p :: p in RadarPoints(es[..|es| - 1], b) ==> p in RadarPoints(es, b)
  {
  }

  /** The last entry, when it belongs to the bucket, puts its point on the radar. */
  lemma LastPointOnRadar(es: seq<Entry>, b: Bucket)
    requires |es| > 0 && StartsWith(es[|es| - 1].0, [Letter(b)])
    ensures PointOf(es[|es| - 1]) in RadarPoints(es, b)
  {
    var r := RadarPoints(es, b);
    assert r == RadarPoints(es[..|es| - 1], b) + [PointOf(es[|es| - 1])];
    assert r[|r| - 1] == PointOf(es[|es| - 1]);
  }

  /** The plotted values of a radar series. */
  function Plotted(ps: seq<Point>): (r: seq<real>)
    ensures |r| == |ps|
    ensures forall i :: 0 <= i < |ps| ==> r[i] == ps[i].1
  {
    seq(|ps|, i requires 0 <= i < |ps| => ps[i].1)
  }

  /** When every criterion of the bucket resolves, the radar plots exactly the
      scores the bucket average is taken over, so the two views agree. */
  lemma {:induction false} RadarMatchesAverage(es: seq<Entry>, b: Bucket)
    requires forall i :: 0 <= i < |es| && BucketOf(es[i].0) == Some(b) ==> ResolveScore(es[i].1).Some?
    ensures Plotted(RadarPoints(es, b)) == ScoresIn(es, b)
    decreases |es|
  {
    if |es| > 0 {
      var init := es[..|es| - 1];
      var last := es[|es| - 1];
      assert forall i :: 0 <= i < |init| ==> init[i] == es[i];
      RadarMatchesAverage(init, b);
      StartsWithLetterIffBucket(last.0, b);
    }
  }

  /** An unresolvable criterion is plotted at 0 on its bucket's radar but left
      out of the bucket average. */
  lemma RadarPlotsUnresolvedAtZero(es: seq<Entry>, code: string, v: JValue, b: Bucket)
    requires BucketOf(code) == Some(b) && ResolveScore(v).None?
    ensures RadarPoints(es + [(code, v)], b) == RadarPoints(es, b) + [(DisplayName(code, v), 0.0)]
    ensures ScoresIn(es + [(code, v)], b) == ScoresIn(es, b)
  {
    assert (es + [(code, v)])[..|es|] == es;
    StartsWithLetterIffBucket(code, b);
  }
}

=== FILE: credential.dfy ===
/** The lexical check on the Gemini API key the user types (app-v2.js,
    `validateKey`): the key is trimmed, one surrounding quote is dropped at
    each end, URLs are refused, and what is left must be `AIza` followed by at
    least twenty key characters. */
module Credential {
  import opened Wrappers
  import opened Strings

  /** The two quote characters `["']` the key may be wrapped in. */
  predicate IsQuote(c: char) {
    c == '"' || c == '\''
  }

  /** `r` is `s` from position `a` on, with only quotes cut off before and after it. */
  ghost predicate UnquotedAt(s: string, r: string, a: nat) {
    && a + |r| <= |s|
    && r == s[a..a + |r|]
    && (forall i :: 0 <= i < a ==> IsQuote(s[i]))
    && (forall i :: a + |r| <= i < |s| ==> IsQuote(s[i]))
  }

  /** `s.replace(/^["']|["']$/g, '')`: a quote at the front is dropped, and a
      quote at the back is dropped unless it is the very quote already
      dropped from the front. */
  function StripQuotes(s: string): (r: string)
    ensures |s| - 2 <= |r| <= |s|
    ensures exists a :: UnquotedAt(s, r, a)
  {
    var a := if |s| > 0 && IsQuote(s[0]) then 1 else 0;
    var b := if |s| > a && IsQuote(s[|s| - 1]) then |s| - 1 else |s|;
    assert UnquotedAt(s, s[a..b], a);
    s[a..b]
  }

  /** A value wrapped in one quote at each end, matching or not, loses exactly those two quotes. */
  lemma StripQuotesUnwraps(q1: char, x: string, q2: char)
    requires IsQuote(q1) && IsQuote(q2)
    ensures StripQuotes([q1] + x + [q2]) == x
  {
    var s := [q1] + x + [q2];
    assert s[1..|s| - 1] == x;
  }

  /** A value with no quote at either end is left as it is. */
  lemma StripQuotesKeepsUnquoted(s: string)
    requires |s| > 0 ==> !IsQuote(s[0]) && !IsQuote(s[|s| - 1])
    ensures StripQuotes(s) == s
  {
  }

  /** A lone quote is dropped entirely: the one quote is both the first and the last character. */
  lemma StripQuotesLoneQuote(q: char)
    requires IsQuote(q)
    ensures StripQuotes([q]) == ""
  {
  }

  /** The key the checks look at: trimmed, then unquoted. */
  function NormalizeKey(k: string): string {
    StripQuotes(Trim(k))
  }

  /** The class `[0-9A-Za-z_\-]`. */
  predicate IsKeyChar(c: char) {
    ('0' <= c <= '9') || ('A' <= c <= 'Z') || ('a' <= c <= 'z') || c == '_' || c == '-'
  }

  /** The fixed start of every key. */
  const KeyPrefix: string := "AIza"

  /** The fewest key characters allowed after the prefix. */
  const MinKeyTail: nat := 20

  /** Every character of `s` is a key character. */
  predicate KeyChars(s: string) {
    forall i :: 0 <= i < |s| ==> IsKeyChar(s[i])
  }

  /** `/^AIza[0-9A-Za-z_\-]{20,}$/`: the prefix, then at least twenty key characters up to the end. */
  predicate HasKeyShape(k: string) {
    |k| >= |KeyPrefix| + MinKeyTail && k[..|KeyPrefix|] == KeyPrefix && KeyChars(k[|KeyPrefix|..])
  }

  /** `/^https?:\/\//i` or `/^file:\/\//i`: the value starts with a web or file URL scheme, in any letter case. */
  predicate LooksLikeUrl(k: string) {
    StartsWithIgnoreCase(k, "http://") || StartsWithIgnoreCase(k, "https://") || StartsWithIgnoreCase(k, "file://")
  }

  /** The pattern test as a left-to-right scan: check the prefix, then every
      remaining character, then the length. */
  method MatchKeyShape(k: string) returns (ok: bool)
    ensures ok <==> HasKeyShape(k)
  {
    if |k| < |KeyPrefix| || k[..|KeyPrefix|] != KeyPrefix {
      return false;
    }
    var i := |KeyPrefix|;
    while i < |k|
      invariant |KeyPrefix| <= i <= |k|
      invariant forall j :: |KeyPrefix| <= j < i ==> IsKeyChar(k[j])
    {
      if !IsKeyChar(k[i]) {
        assert k[|KeyPrefix|..][i - |KeyPrefix|] == k[i];
        return false;
      }
      i := i + 1;
    }
    ok := |k| >= |KeyPrefix| + MinKeyTail;
    assert forall j :: 0 <= j < |k| - |KeyPrefix| ==> k[|KeyPrefix|..][j] == k[|KeyPrefix| + j];
  }

  /** A value of the key's shape never starts with a URL scheme: its first
      letter is `A`, which folds to `a`, not `h` or `f`. The URL test therefore
      never changes the verdict. */
  lemma KeyShapeIsNoUrl(k: string)
    requires HasKeyShape(k)
    ensures !LooksLikeUrl(k)
  {
    assert k[0] == k[..|KeyPrefix|][0] == 'A';
    assert LowerAscii(k[0]) == 'a';
  }

  /** A value that looks like a URL never has the key's shape. */
  lemma UrlHasNoKeyShape(k: string)
    requires LooksLikeUrl(k)
    ensures !HasKeyShape(k)
  {
    if HasKeyShape(k) {
      KeyShapeIsNoUrl(k);
    }
  }

  /** `validateKey(k)`: false for an absent or empty value; otherwise false
      for a URL, and true exactly when the trimmed, unquoted value has the
      key's shape. */
  function ValidateKey(k: Option<string>): (ok: bool)
    ensures k == None || k == Some("") ==> !ok
    ensures k.Some? && k.value != "" ==> (ok <==> HasKeyShape(NormalizeKey(k.value)))
    ensures ok ==> k.Some? && !LooksLikeUrl(NormalizeKey(k.value))
  {
    if k.None? || k.value == "" then false
    else
      var key := NormalizeKey(k.value);
      if LooksLikeUrl(key) then
        UrlHasNoKeyShape(key);
        false
      else HasKeyShape(key)
  }

  /** One space on each side of a value with non-space ends is trimmed away. */
  lemma TrimPadded(x: string)
    requires |x| > 0 && !IsJsSpace(x[0]) && !IsJsSpace(x[|x| - 1])
    ensures Trim(" " + x + " ") == x
  {
    var padded := " " + x + " ";
    assert padded[1..] == x + " ";
    assert TrimStart(padded) == TrimStart(x + " ") == x + " ";
    assert (x + " ")[..|x|] == x;
    assert TrimEnd(x + " ") == TrimEnd(x) == x;
  }

  /** A value that starts with a key character and ends with one is its own normal form. */
  lemma NormalizeKeyOfBareValue(s: string)
    requires |s| > 0 && IsKeyChar(s[0]) && IsKeyChar(s[|s| - 1])
    ensures NormalizeKey(s) == s
  {
    TrimOfTrimmed(s);
    StripQuotesKeepsUnquoted(s);
  }

  /** A well-formed key passes even when padded with a space on each side and
      wrapped in quotes, matching or not. */
  lemma ValidateKeyAcceptsWrappedKey(key: string, q1: char, q2: char)
    requires HasKeyShape(key) && IsQuote(q1) && IsQuote(q2)
    ensures ValidateKey(Some(" " + [q1] + key + [q2] + " "))
  {
    var quoted := [q1] + key + [q2];
    assert " " + [q1] + key + [q2] + " " == " " + quoted + " ";
    TrimPadded(quoted);
    StripQuotesUnwraps(q1, key, q2);
  }

  /** A value whose first character is not `A` does not have the key's shape. */
  lemma NoKeyShapeWithoutPrefixLetter(s: string)
    requires |s| > 0 && s[0] != 'A'
    ensures !HasKeyShape(s)
  {
    if |s| >= |KeyPrefix| {
      assert s[..|KeyPrefix|][0] == s[0];
    }
  }

  /** A value that starts and ends with a key character, but not with `A`, fails. */
  lemma BareValueWithoutPrefixFails(s: string)
    requires |s| > 0 && IsKeyChar(s[0]) && IsKeyChar(s[|s| - 1]) && s[0] != 'A'
    ensures !ValidateKey(Some(s))
  {
    NormalizeKeyOfBareValue(s);
    NoKeyShapeWithoutPrefixLetter(s);
  }

  /** The last character of a value of the key's shape is a key character. */
  lemma KeyShapeEndsWithKeyChar(key: string)
    requires HasKeyShape(key)
    ensures IsKeyChar(key[|key| - 1])
  {
    assert key[|key| - 1] == key[|KeyPrefix|..][|key| - 1 - |KeyPrefix|];
  }

  /** A well-formed key behind a URL scheme fails. */
  lemma ValidateKeyRejectsUrl(key: string)
    requires HasKeyShape(key)
    ensures !ValidateKey(Some("https://" + key))
  {
    var url := "https://" + key;
    KeyShapeEndsWithKeyChar(key);
    assert url[0] == 'h' && url[|url| - 1] == key[|key| - 1];
    BareValueWithoutPrefixFails(url);
  }

  /** Fewer than twenty key characters after the prefix fail. */
  lemma ValidateKeyRejectsShortKey(tail: string)
    requires KeyChars(tail) && |tail| < MinKeyTail
    ensures !ValidateKey(Some(KeyPrefix + tail))
  {
    var k := KeyPrefix + tail;
    assert k[0] == 'A';
    assert IsKeyChar(k[|k| - 1]) by {
      if |tail| > 0 { assert k[|k| - 1] == tail[|tail| - 1]; }
    }
    NormalizeKeyOfBareValue(k);
  }

  /** The prefix is case-sensitive: `aiza` does not start a key. */
  lemma ValidateKeyPrefixIsCaseSensitive(tail: string)
    requires KeyChars(tail)
    ensures !ValidateKey(Some("aiza" + tail))
  {
    var k := "aiza" + tail;
    assert k[0] == 'a';
    assert IsKeyChar(k[|k| - 1]) by {
      if |tail| > 0 { assert k[|k| - 1] == tail[|tail| - 1]; }
    }
    BareValueWithoutPrefixFails(k);
  }
}

=== FILE: flow.dfy ===
/** The score button's handler (app-v2.js): the checks that refuse to send
    a request, the request it builds, and the error panel each failure
    raises. The network exchange is a parameter: given the request, it
    yields a non-ok status with its body, a rejected fetch, or the answer's
    text. */
module Flow {
  import opened Wrappers
  import opened Strings
  import opened JsValue
  import opened Credential
  import opened Photos
  import opened Gemini
  import opened Prompt
  import opened Render

  /** The five error panels; showing one hides the others. */
  datatype Panel = KeyMissing | KeyInvalid | NoPhotos | Network | ModelOutput

  /** The two texts that mark a rejected key, and the one that marks an HTTP failure. */
  const KeyNotValidMarker: string := "API key not valid"
  const KeyInvalidMarker: string := "API_KEY_INVALID"
  const HttpMarker: string := "HTTP"

  /** The panel for an error's text, tested in order: a rejected key, then
      anything mentioning HTTP, then the model-output panel. */
  function RouteError(msg: string): Panel {
    if Contains(msg, KeyNotValidMarker) || Contains(msg, KeyInvalidMarker) then KeyInvalid
    else if Contains(msg, HttpMarker) then Network
    else ModelOutput
  }

  /** A text without the letters `A` and `H` holds none of the markers, so it
      lands on the model-output panel. */
  lemma RouteWithoutMarkers(msg: string)
    requires NoChar(msg, 'A') && NoChar(msg, 'H')
    ensures RouteError(msg) == ModelOutput
  {
    NotContainsWithoutHead(msg, KeyNotValidMarker);
    NotContainsWithoutHead(msg, KeyInvalidMarker);
    NotContainsWithoutHead(msg, HttpMarker);
  }

  /** A non-ok response never reaches the model-output panel: its text names
      HTTP. It shows the key panel exactly when the response body carries one
      of the key markers, since the text before the body has no `A`, and the
      network panel otherwise. */
  lemma RouteHttpFailure(status: nat, body: string)
    ensures RouteError(Message(HttpStatus(status, body))) != ModelOutput
    ensures RouteError(Message(HttpStatus(status, body))) == KeyInvalid
            <==> Contains(body, KeyNotValidMarker) || Contains(body, KeyInvalidMarker)
    ensures RouteError(Message(HttpStatus(status, body)))
            == (if Contains(body, KeyNotValidMarker) || Contains(body, KeyInvalidMarker) then KeyInvalid else Network)
  {
    var d := NatToString(status);
    var head := "Error: " + "HTTP " + d;
    var msg := Message(HttpStatus(status, body));
    assert NoChar(head, 'A');
    assert msg[7..11] == HttpMarker;
    assert OccursAt(msg, HttpMarker, 7);
    if body == "" {
      assert msg == head;
      NotContainsWithoutHead(head, KeyNotValidMarker);
      NotContainsWithoutHead(head, KeyInvalidMarker);
      assert !OccursAt(body, KeyNotValidMarker, 0) && !OccursAt(body, KeyInvalidMarker, 0);
    } else {
      var p := head + ": ";
      assert msg == p + body;
      ContainsPastPrefix(p, body, KeyNotValidMarker);
      ContainsPastPrefix(p, body, KeyInvalidMarker);
    }
  }

  /** The text of a read of a property of `null` or `undefined` holds neither
      `A` nor `H` when the property name holds neither. */
  lemma ReadErrorTextPlain(v: JValue, prop: string)
    requires IsNullish(v) && NoChar(prop, 'A') && NoChar(prop, 'H')
    ensures NoChar(ReadErrorText(v, prop), 'A') && NoChar(ReadErrorText(v, prop), 'H')
  {
    var pre := "TypeError: " + "Cannot read " + "properties of " + (if v.JNull? then "null" else "undefined") + " (reading '";
    assert NoChar(pre, 'A') && NoChar(pre, 'H');
    assert ReadErrorText(v, prop) == pre + prop + "')";
  }

  /** Every exception `renderAll` throws lands on the model-output panel. */
  lemma RenderErrorsShowModelPanel(msg: string)
    requires msg in RenderErrorTexts
    ensures RouteError(msg) == ModelOutput
  {
    assert NoChar("toFixed", 'A') && NoChar("toFixed", 'H');
    assert NoChar("total_weighted", 'A') && NoChar("total_weighted", 'H');
    ReadErrorTextPlain(JNull, "toFixed");
    ReadErrorTextPlain(JNull, "total_weighted");
    ReadErrorTextPlain(JUndefined, "total_weighted");
    assert NoChar(ForEachErrorText, 'A') && NoChar(ForEachErrorText, 'H') by {
      assert NoChar("TypeError: ", 'A') && NoChar("TypeError: ", 'H');
      assert NoChar("(items || []).forEach", 'A') && NoChar("(items || []).forEach", 'H');
      assert NoChar(" is not a function", 'A') && NoChar(" is not a function", 'H');
    }
    RouteWithoutMarkers(msg);
  }

  /** An answer with nothing to recover lands on the model-output panel. */
  lemma NoJsonShowsModelPanel()
    ensures RouteError(Message(NoJson)) == ModelOutput
  {
    assert NoChar("Error: ", 'A') && NoChar("Error: ", 'H');
    assert NoChar(NoJsonText, 'A') && NoChar(NoJsonText, 'H');
    RouteWithoutMarkers(Message(NoJson));
  }

  /** A fetch that is rejected before any response (the browser's
      `TypeError: Failed to fetch`) names no HTTP status, so it lands on the
      model-output panel rather than the network panel. */
  lemma RejectedFetchShowsModelPanel()
    ensures RouteError("TypeError: " + "Failed to fetch") == ModelOutput
  {
    assert NoChar("TypeError: ", 'A') && NoChar("TypeError: ", 'H');
    assert NoChar("Failed to fetch", 'A') && NoChar("Failed to fetch", 'H');
    RouteWithoutMarkers("TypeError: " + "Failed to fetch");
  }

  /** The checks made before any request, in order: no photos, an empty
      key field, then a key that fails `validateKey`. None means the request
      goes out. */
  function Gate(photoCount: nat, keyField: string): (p: Option<Panel>)
    ensures photoCount == 0 ==> p == Some(NoPhotos)
    ensures photoCount > 0 && Trim(keyField) == "" ==> p == Some(KeyMissing)
    ensures photoCount > 0 && Trim(keyField) != "" ==>
              (p.None? <==> HasKeyShape(NormalizeKey(keyField))) && (p.Some? ==> p.value == KeyInvalid)
  {
    TrimIdempotent(keyField);
    if photoCount == 0 then Some(NoPhotos)
    else if Trim(keyField) == "" then Some(KeyMissing)
    else if !ValidateKey(Some(Trim(keyField))) then Some(KeyInvalid)
    else None
  }

  /** The form fields the handler reads: the sex toggle, the age as already
      parsed, the ethnicity field and the selected region. */
  datatype Form = Form(male: bool, age: JValue, ethnicity: string, region: string)

  /** The `params` object of the handler: the ethnicity trimmed and no goals. */
  function ScoreParams(form: Form): (r: JValue)
    ensures r.JObj?
    ensures Get(r, "sex") == JStr(if form.male then "male" else "female")
    ensures Get(r, "age") == form.age
    ensures Get(r, "ethnicity") == JStr(Trim(form.ethnicity))
    ensures Get(r, "region_standard") == JStr(form.region)
    ensures Get(r, "goals") == JArr([])
  {
    var ms := [("sex", JStr(if form.male then "male" else "female")),
               ("age", form.age),
               ("ethnicity", JStr(Trim(form.ethnicity))),
               ("region_standard", JStr(form.region)),
               ("goals", JArr([]))];
    assert |"ethnicity"| != |"sex"| && |"ethnicity"| != |"age"| && |"ethnicity"| != |"goals"|;
    assert |"region_standard"| != |"sex"| && |"region_standard"| != |"age"|;
    assert |"region_standard"| != |"ethnicity"| && |"region_standard"| != |"goals"|;
    KeysDiffer("sex", "age", 0);
    assert |"sex"| != |"goals"| && |"age"| != |"goals"|;
    GetOfFive("sex", "age", "ethnicity", "region_standard", "goals",
              ms[0].1, ms[1].1, ms[2].1, ms[3].1, ms[4].1);
    JObj(ms)
  }

  /** The form reaches the prompt's `inputs` with its defaults: the sex,
      the age, the trimmed ethnicity, the region or `US`, and no goals.
      `Prompt.BuildPromptJSON` places exactly this object in the shell. */
  lemma ScoreParamsReachShell(form: Form)
    ensures var inputs := PromptInputs(ScoringInputs(ScoreParams(form)));
            && Get(inputs, "sex") == JStr(if form.male then "male" else "female")
            && Get(inputs, "age") == form.age
            && Get(inputs, "ethnicity") == JStr(Trim(form.ethnicity))
            && Get(inputs, "region_standard") == JStr(if form.region == "" then DefaultRegion else form.region)
            && Get(inputs, "goals") == JArr([])
  {
  }

  /** `buildContents(key, images, params)`: the scoring turn for the images
      and the rubric. The endpoint it attaches, which carries the key, is
      the request's key here. */
  function BuildContents(photos: seq<Photo>, params: JValue, rubric: JValue, stringify: Stringifier): (r: JValue)
    ensures r.JArr? && |r.items| == 1
    ensures !IsNullish(params) ==>
              var parts := Get(r.items[0], "parts");
              && parts.JArr? && |parts.items| == |photos| + 1
              && parts.items[..|photos|] == ImageParts(photos)
              && (forall i :: 0 <= i < |photos| ==>
                    Get(Get(parts.items[i], "inline_data"), "data") == JStr(B64(photos[i].dataUrl)))
  {
    var r := BuildScoringContents(params, JObj([("rubric", rubric)]), JArr(ImageParts(photos)), stringify);
    if IsNullish(params) then r
    else
      ScoringContentsOrder(params, JObj([("rubric", rubric)]), ImageParts(photos), stringify);
      PrefixPayloads(Get(r.items[0], "parts").items, photos);
      r
  }

  /** Parts that start with the image parts of `photos` carry each photo's payload at its position. */
  lemma PrefixPayloads(parts: seq<JValue>, photos: seq<Photo>)
    requires |photos| <= |parts| && parts[..|photos|] == ImageParts(photos)
    ensures forall i :: 0 <= i < |photos| ==>
              Get(Get(parts[i], "inline_data"), "data") == JStr(B64(photos[i].dataUrl))
  {
    forall i | 0 <= i < |photos|
      ensures Get(Get(parts[i], "inline_data"), "data") == JStr(B64(photos[i].dataUrl))
    {
      assert parts[i] == parts[..|photos|][i] == ImagePart(photos[i]);
    }
  }

  /** What the network exchange yields for a request. */
  datatype Transport =
    | HttpFailure(status: nat, body: string)  // a response whose status is not ok
    | FetchRejected(message: string)          // the text of the error a rejected fetch throws
    | Delivered(text: string)                 // the answer's text parts joined

  /** The request sent: the key put on the endpoint, and the contents. */
  datatype Request = Request(key: string, contents: JValue)

  /** How a click ends: refused before any request, failed after sending
      one, or drawn. */
  datatype Click =
    | Refused(panel: Panel)
    | Failed(request: Request, panel: Panel)
    | Scored(request: Request, view: Rendered)

  /** The `try` block of the handler: build and send the request with `key`,
      then conclude from what the exchange yields. */
  function Attempt(key: string, photos: seq<Photo>, params: JValue, rubric: JValue,
                   send: Request -> Transport, parse: Parser, stringify: Stringifier): (c: Click)
    ensures !c.Refused? && c.request == Request(key, BuildContents(photos, params, rubric, stringify))
    ensures send(c.request).HttpFailure? ==>
              && c.Failed? && c.panel != ModelOutput
              && (c.panel == KeyInvalid <==> Contains(send(c.request).body, KeyNotValidMarker)
                                             || Contains(send(c.request).body, KeyInvalidMarker))
              && (c.panel != KeyInvalid ==> c.panel == Network)
    ensures send(c.request).FetchRejected? ==> c == Failed(c.request, RouteError(send(c.request).message))
    ensures send(c.request).Delivered? ==> c == Conclude(c.request, send(c.request).text, parse, stringify)
    ensures c.Scored? ==> send(c.request).Delivered?
  {
    var req := Request(key, BuildContents(photos, params, rubric, stringify));
    match send(req)
    case HttpFailure(status, body) =>
      RouteHttpFailure(status, body);
      Failed(req, RouteError(Message(HttpStatus(status, body))))
    case FetchRejected(m) => Failed(req, RouteError(m))
    case Delivered(text) => Conclude(req, text, parse, stringify)
  }

  /** The rest of the `try` block once the answer's text has arrived:
      recover its JSON from the trimmed text and draw it; a fault is routed
      by its text. The fixed texts of a missing answer and of `renderAll`'s
      exceptions show the model-output panel; a parse error's text, which the
      parser may fill with part of the answer, can show any panel. */
  function Conclude(req: Request, text: string, parse: Parser, stringify: Stringifier): (c: Click)
    ensures !c.Refused? && c.request == req
    ensures Recover(Trim(text), parse) == Failure(NoJson) ==> c == Failed(req, ModelOutput)
    ensures Recover(Trim(text), parse).Failure? ==>
              c == Failed(req, RouteError(Message(Recover(Trim(text), parse).error)))
    ensures Recover(Trim(text), parse).Success? ==>
              var data := Recover(Trim(text), parse).value;
              && (Normalize(data, stringify).Failure? ==> c == Failed(req, ModelOutput))
              && (Normalize(data, stringify).Success? ==> c == Scored(req, Normalize(data, stringify).value))
  {
    match Recover(Trim(text), parse)
    case Failure(f) =>
      NoJsonShowsModelPanel();
      Failed(req, RouteError(Message(f)))
    case Success(data) =>
      match Normalize(data, stringify)
      case Failure(f) =>
        RenderErrorsShowModelPanel(f.message);
        Failed(req, RouteError(Message(f)))
      case Success(view) => Scored(req, view)
  }

  /** A parse error quoting `HTTP` and without the key markers names the network panel. */
  lemma HttpParseErrorShowsNetwork()
    ensures RouteError("SyntaxError: " + HttpMarker) == Network
  {
    var m := "SyntaxError: " + HttpMarker;
    assert NoChar(m, 'A');
    NotContainsWithoutHead(m, KeyNotValidMarker);
    NotContainsWithoutHead(m, KeyInvalidMarker);
    assert m[13..17] == HttpMarker;
    assert OccursAt(m, HttpMarker, 13);
  }

  /** An answer whose recovery throws a parse error quoting `HTTP` shows the
      network panel. The answer `{}` with a parser that rejects it throws
      the parser's error (`Gemini.EmptyObjectUnparsed`). */
  lemma UnparsedCandidateShowsNetwork(req: Request, text: string, parse: Parser, stringify: Stringifier)
    requires Recover(Trim(text), parse) == Failure(Thrown("SyntaxError: " + HttpMarker))
    ensures Conclude(req, text, parse, stringify) == Failed(req, Network)
  {
    ThrownMessage("SyntaxError: " + HttpMarker);
    HttpParseErrorShowsNetwork();
  }

  /** The handler as written: it validates the unquoted key but sends the
      trimmed field, quotes and all. */
  function ScoreClickAsWritten(files: seq<Photo>, keyField: string, form: Form, rubric: JValue,
                               send: Request -> Transport, parse: Parser, stringify: Stringifier): (c: Click)
    ensures |files| == 0 ==> c == Refused(NoPhotos)
    ensures c.Refused? <==> Gate(|files|, keyField).Some?
    ensures c.Refused? ==> c.panel == Gate(|files|, keyField).value
    ensures !c.Refused? ==> c.request.key == Trim(keyField)
  {
    match Gate(|files|, keyField)
    case Some(p) => Refused(p)
    case None => Attempt(Trim(keyField), files, ScoreParams(form), rubric, send, parse, stringify)
  }

  /** The handler with the key it validated: the unquoted key is the one
      sent, so every request carries a key of the key's shape. */
  function ScoreClick(files: seq<Photo>, keyField: string, form: Form, rubric: JValue,
                      send: Request -> Transport, parse: Parser, stringify: Stringifier): (c: Click)
    ensures |files| == 0 ==> c == Refused(NoPhotos)
    ensures c.Refused? <==> Gate(|files|, keyField).Some?
    ensures c.Refused? ==> c.panel == Gate(|files|, keyField).value
    ensures !c.Refused? ==> c.request.key == NormalizeKey(keyField) && HasKeyShape(c.request.key)
    ensures !c.Refused? ==> c.request.contents == BuildContents(files, ScoreParams(form), rubric, stringify)
  {
    match Gate(|files|, keyField)
    case Some(p) => Refused(p)
    case None => Attempt(NormalizeKey(keyField), files, ScoreParams(form), rubric, send, parse, stringify)
  }

  /** A well-formed key in quotes is its own trim, passes the checks, and
      is not itself of the key's shape. */
  lemma QuotedKeyPasses(photoCount: nat, key: string, q1: char, q2: char)
    requires photoCount > 0 && HasKeyShape(key) && IsQuote(q1) && IsQuote(q2)
    ensures Trim([q1] + key + [q2]) == [q1] + key + [q2] && NormalizeKey([q1] + key + [q2]) == key
    ensures !HasKeyShape([q1] + key + [q2]) && Gate(photoCount, [q1] + key + [q2]) == None
  {
    var field := [q1] + key + [q2];
    TrimOfTrimmed(field);
    StripQuotesUnwraps(q1, key, q2);
    NoKeyShapeWithoutPrefixLetter(field);
  }

  /** A well-formed key typed inside quotes passes the checks, yet the
      handler as written sends it with its quotes, which is not a key. */
  lemma QuotedKeySentWithQuotes(files: seq<Photo>, key: string, q1: char, q2: char, form: Form, rubric: JValue,
                                send: Request -> Transport, parse: Parser, stringify: Stringifier)
    requires |files| > 0 && HasKeyShape(key) && IsQuote(q1) && IsQuote(q2)
    ensures var c := ScoreClickAsWritten(files, [q1] + key + [q2], form, rubric, send, parse, stringify);
            !c.Refused? && c.request.key == [q1] + key + [q2] && !HasKeyShape(c.request.key)
  {
    QuotedKeyPasses(|files|, key, q1, q2);
  }

  /** The corrected handler sends the same quoted key without its quotes. */
  lemma QuotedKeySentUnquoted(files: seq<Photo>, key: string, q1: char, q2: char, form: Form, rubric: JValue,
                              send: Request -> Transport, parse: Parser, stringify: Stringifier)
    requires |files| > 0 && HasKeyShape(key) && IsQuote(q1) && IsQuote(q2)
    ensures var c := ScoreClick(files, [q1] + key + [q2], form, rubric, send, parse, stringify);
            !c.Refused? && c.request.key == key
  {
    QuotedKeyPasses(|files|, key, q1, q2);
  }
}

=== FILE: gemini.dfy ===
/** What `callGemini` (app-v2.js) makes of the model's answer: the HTTP
    failure it raises, and the JSON it recovers from the answer text, parsed
    whole or else from the first `{` to the last `}`. `JSON.parse` is a
    parameter: it either yields a value or fails with the message of the
    exception it throws. */
module Gemini {
  import opened Wrappers
  import opened Strings
  import opened JsValue

  /** Why a scoring attempt produced no results, each with the text `String(err)` gives. */
  datatype Fault =
    | HttpStatus(status: nat, body: string)  // a response whose status is not ok, with its body text
    | Thrown(message: string)                // any other exception: a rejected fetch, a JSON syntax error, a TypeError
    | NoJson                                 // no truthy value could be recovered from the answer text

  /** The text of the error `callGemini` throws on a non-ok response:
      `"HTTP " + status + (txt ? ": " + txt : "")`. */
  function HttpErrorText(status: nat, body: string): (r: string)
    ensures StartsWith(r, "HTTP ") && |r| >= 5 + |NatToString(status)|
    ensures r[5..5 + |NatToString(status)|] == NatToString(status)
    ensures body == "" ==> |r| == 5 + |NatToString(status)|
    ensures body != "" ==> r[5 + |NatToString(status)|..] == ": " + body
  {
    var r := "HTTP " + NatToString(status) + (if body == "" then "" else ": " + body);
    assert r[..5] == "HTTP ";
    r
  }

  /** The text of the `Error` raised when nothing was recovered. */
  const NoJsonText: string := "No JSON from model"

  /** `String(err)`: an `Error` prints as `Error: ` and its message; a
      thrown value's text is taken as given. */
  function Message(f: Fault): string {
    match f
    case HttpStatus(status, body) => "Error: " + HttpErrorText(status, body)
    case Thrown(m) => m
    case NoJson => "Error: " + NoJsonText
  }

  /** The text that might hold a JSON object when the whole answer does not
      parse: `text.slice(s, e + 1)` with `s` the first `{` and `e` the last
      `}`; none when either brace is missing, and empty when the last `}`
      comes before the first `{`. */
  function BraceCandidate(text: string): (c: Option<string>)
    ensures c.None? <==> '{' !in text || '}' !in text
    ensures c.Some? ==>
              exists s, e :: 0 <= s < |text| && 0 <= e < |text| && text[s] == '{' && text[e] == '}'
                             && '{' !in text[..s] && (forall j :: e < j < |text| ==> text[j] != '}')
                             && c.value == (if s <= e then text[s..e + 1] else "")
  {
    var s := IndexOf(text, '{');
    var e := LastIndexOf(text, '}');
    if s == -1 || e == -1 then
      assert e == -1 ==> forall j :: 0 <= j < |text| ==> text[j] != '}';
      None
    else
      assert '}' in text;
      Some(Slice(text, s, e + 1))
  }

  /** The JSON object of an answer wrapped in prose, where the leading prose
      has no `{` and the trailing prose no `}`, is exactly the candidate. */
  lemma BraceCandidateOfWrapped(before: string, json: string, after: string)
    requires '{' !in before && '}' !in after
    requires |json| >= 2 && json[0] == '{' && json[|json| - 1] == '}'
    ensures BraceCandidate(before + json + after) == Some(json)
  {
    var t := before + json + after;
    var s := |before|;
    var e := |before| + |json| - 1;
    assert t[s] == '{' && t[e] == '}';
    assert t[..s] == before;
    assert IndexOf(t, '{') == s;
    assert forall j :: e < j < |t| ==> t[j] == after[j - e - 1];
    assert LastIndexOf(t, '}') == e by {
      var l := LastIndexOf(t, '}');
      assert l >= e;
    }
    assert t[s..e + 1] == json;
  }

  /** The data `callGemini` returns or the fault it raises: the parse of the
      whole text when that succeeds, otherwise the parse of the brace
      candidate, whose failure propagates; a missing candidate or a falsy
      value is the no-JSON fault. */
  function Recover(text: string, parse: Parser): (r: Result<JValue, Fault>)
    ensures r.Success? ==> Truthy(r.value)
    ensures parse(text).Success? ==>
              r == (if Truthy(parse(text).value) then Success(parse(text).value) else Failure(NoJson))
    ensures parse(text).Failure? && BraceCandidate(text).None? ==> r == Failure(NoJson)
    ensures parse(text).Failure? && BraceCandidate(text).Some? ==>
              var p := parse(BraceCandidate(text).value);
              r == (if p.Failure? then Failure(Thrown(p.error))
                    else if Truthy(p.value) then Success(p.value) else Failure(NoJson))
  {
    var direct := parse(text);
    var data :=
      if direct.Success? then Success(direct.value)
      else match BraceCandidate(text)
        case None => Success(JUndefined)
        case Some(c) =>
          match parse(c)
          case Success(v) => Success(v)
          case Failure(m) => Failure(Thrown(m));
    match data
    case Failure(f) => Failure(f)
    case Success(v) => if Truthy(v) then Success(v) else Failure(NoJson)
  }

  /** The text shown for a thrown error is the error's own text. */
  lemma ThrownMessage(m: string)
    ensures Message(Thrown(m)) == m
  {
  }

  /** The answer `{}` has no white space to trim. */
  lemma EmptyObjectIsOwnTrim()
    ensures Trim("{}") == "{}"
  {
    TrimOfTrimmed("{}");
  }

  /** A JSON object with nothing around it is its own candidate. */
  lemma WrappedInNothing(json: string)
    requires |json| >= 2 && json[0] == '{' && json[|json| - 1] == '}'
    ensures BraceCandidate(json) == Some(json)
  {
    BraceCandidateOfWrapped("", json, "");
    assert "" + json + "" == json;
  }

  /** An answer that is its own candidate, and that the parser rejects,
      throws the parser's error on, which is the text shown. */
  lemma RecoverUnparsedCandidate(text: string, parse: Parser)
    requires BraceCandidate(text) == Some(text) && parse(text).Failure?
    ensures Recover(text, parse) == Failure(Thrown(parse(text).error))
    ensures Message(Recover(text, parse).error) == parse(text).error
  {
  }

  /** The answer `{}`, when the parser rejects it, throws the parser's error. */
  lemma EmptyObjectUnparsed(parse: Parser)
    requires parse("{}").Failure?
    ensures Recover(Trim("{}"), parse) == Failure(Thrown(parse("{}").error))
  {
    EmptyObjectIsOwnTrim();
    WrappedInNothing("{}");
    RecoverUnparsedCandidate("{}", parse);
  }

  /** An answer that parses whole as an object is returned as parsed. */
  lemma RecoverWholeObject(text: string, parse: Parser, members: seq<(string, JValue)>)
    requires parse(text) == Success(JObj(members))
    ensures Recover(text, parse) == Success(JObj(members))
  {
  }

  /** An object wrapped in prose is recovered from between its braces. */
  lemma RecoverWrappedObject(before: string, json: string, after: string, parse: Parser, members: seq<(string, JValue)>)
    requires '{' !in before && '}' !in after
    requires |json| >= 2 && json[0] == '{' && json[|json| - 1] == '}'
    requires parse(before + json + after).Failure? && parse(json) == Success(JObj(members))
    ensures Recover(before + json + after, parse) == Success(JObj(members))
  {
    BraceCandidateOfWrapped(before, json, after);
  }

  /** Text that does not parse and lacks one of the braces yields the no-JSON fault, without a second parse. */
  lemma RecoverWithoutBraces(text: string, parse: Parser)
    requires parse(text).Failure? && ('{' !in text || '}' !in text)
    ensures Recover(text, parse) == Failure(NoJson)
  {
  }

  /** A falsy answer, such as `0`, `false`, `""` or `null`, is no data. */
  lemma RecoverRejectsFalsy(text: string, parse: Parser)
    requires parse(text).Success? && !Truthy(parse(text).value)
    ensures Recover(text, parse) == Failure(NoJson)
  {
  }
}

=== FILE: jsvalue.dfy ===
/** The JavaScript values the client reads from the parsed model answer and
    builds for the request. Numbers are reals: the values come from
    `JSON.parse`, which never yields NaN or an infinity, and floating-point
    rounding is not modelled. An object is the list of its own properties in
    the order `Object.entries` enumerates them. */
module JsValue {
  import opened Wrappers
  import opened Strings

  datatype JValue =
    | JUndefined
    | JNull
    | JBool(b: bool)
    | JNum(n: real)
    | JStr(s: string)
    | JArr(items: seq<JValue>)
    | JObj(members: seq<(string, JValue)>)

  /** `JSON.parse`, taken as given: a value, or the text of the exception it throws. */
  type Parser = string -> Result<JValue, string>

  /** `JSON.stringify`, taken as given. */
  type Stringifier = JValue -> string

  /** The property `key` among `members`, or `undefined` when there is none. */
  function Lookup(members: seq<(string, JValue)>, key: string): (r: JValue)
    ensures (forall i :: 0 <= i < |members| ==> members[i].0 != key) ==> r == JUndefined
    ensures forall i :: (0 <= i < |members| && members[i].0 == key
                         && (forall j :: 0 <= j < i ==> members[j].0 != key)) ==> r == members[i].1
    decreases |members|
  {
    if |members| == 0 then JUndefined
    else if members[0].0 == key then members[0].1
    else Lookup(members[1..], key)
  }

  /** `v?.key`: the property of an object, `undefined` for every other value.
      None of the keys the client reads is a built-in property of strings,
      arrays, numbers or booleans, so those read as `undefined` too. */
  function Get(v: JValue, key: string): JValue {
    if v.JObj? then Lookup(v.members, key) else JUndefined
  }

  /** JavaScript truthiness. */
  predicate Truthy(v: JValue) {
    match v
    case JUndefined => false
    case JNull => false
    case JBool(b) => b
    case JNum(n) => n != 0.0
    case JStr(s) => |s| > 0
    case JArr(_) => true
    case JObj(_) => true
  }

  /** `v === null || v === undefined`, what `??` and `?.` test. */
  predicate IsNullish(v: JValue) {
    v.JUndefined? || v.JNull?
  }

  /** `typeof v === 'object'`: objects, arrays and `null`. */
  predicate IsObjectType(v: JValue) {
    v.JObj? || v.JArr? || v.JNull?
  }

  /** `a || b`. */
  function Or(a: JValue, b: JValue): (r: JValue)
    ensures Truthy(a) ==> r == a
    ensures !Truthy(a) ==> r == b
  {
    if Truthy(a) then a else b
  }

  /** `a ?? b`. */
  function Coalesce(a: JValue, b: JValue): (r: JValue)
    ensures !IsNullish(a) ==> r == a
    ensures IsNullish(a) ==> r == b
  {
    if IsNullish(a) then b else a
  }

  /** `||` picks one of its operands, is truthy exactly when one of them is,
      and groups either way, so a chain `a || b || c` means the same however
      it is read. */
  lemma OrLaws(a: JValue, b: JValue, c: JValue)
    ensures Or(a, b) == a || Or(a, b) == b
    ensures Truthy(Or(a, b)) <==> Truthy(a) || Truthy(b)
    ensures Or(Or(a, b), c) == Or(a, Or(b, c))
  {
  }

  /** `??` picks one of its operands, is nullish exactly when both are, and
      groups either way, so a chain `a ?? b ?? c` yields its first operand
      that is neither `null` nor `undefined`. */
  lemma CoalesceLaws(a: JValue, b: JValue, c: JValue)
    ensures Coalesce(a, b) == a || Coalesce(a, b) == b
    ensures IsNullish(Coalesce(a, b)) <==> IsNullish(a) && IsNullish(b)
    ensures Coalesce(Coalesce(a, b), c) == Coalesce(a, Coalesce(b, c))
  {
  }

  /** `Object.entries(v)` for a value that is neither `null` nor `undefined`:
      an object's properties; an array's or a string's positions, keyed by
      their decimal index; nothing for a number or a boolean. */
  function Entries(v: JValue): (r: seq<(string, JValue)>)
    ensures v.JObj? ==> r == v.members
    ensures v.JArr? ==> (|r| == |v.items|
                         && forall i :: 0 <= i < |r| ==> r[i] == (NatToString(i), v.items[i]))
    ensures v.JStr? ==> (|r| == |v.s|
                         && forall i :: 0 <= i < |r| ==> r[i] == (NatToString(i), JStr([v.s[i]])))
    ensures v.JNum? || v.JBool? || IsNullish(v) ==> r == []
  {
    match v
    case JObj(ms) => ms
    case JArr(items) => seq(|items|, i requires 0 <= i < |items| => (NatToString(i), items[i]))
    case JStr(s) => seq(|s|, i requires 0 <= i < |s| => (NatToString(i), JStr([s[i]])))
    case _ => []
  }

  /** `Object.values(v)`. */
  function Values(v: JValue): (r: seq<JValue>)
    ensures |r| == |Entries(v)|
    ensures forall i :: 0 <= i < |r| ==> r[i] == Entries(v)[i].1
  {
    var es := Entries(v);
    seq(|es|, i requires 0 <= i < |es| => es[i].1)
  }

  /** Every key of an array or a string is a decimal index, so it starts with a digit. */
  lemma IndexKeysStartWithDigit(v: JValue, i: nat)
    requires !v.JObj? && i < |Entries(v)|
    ensures |Entries(v)[i].0| > 0 && IsDigit(Entries(v)[i].0[0])
  {
  }
}

=== FILE: photos.dfy ===
/** The photos sent with a scoring request (app-v2.js): at most five of the
    selected files are read, and each read image becomes one inline image part
    whose payload is the base64 text of its data URL. */
module Photos {
  import opened Strings
  import opened JsValue

  /** The most photos one selection keeps (`slice(0,5)`). */
  const MaxPhotos: nat := 5

  /** `list.slice(0,5)`: the first five of the selected files, in selection order. */
  function SelectPhotos<T>(files: seq<T>): (r: seq<T>)
    ensures |r| <= MaxPhotos && |r| <= |files|
    ensures |files| <= MaxPhotos ==> r == files
    ensures |files| > MaxPhotos ==> |r| == MaxPhotos
    ensures forall i :: 0 <= i < |r| ==> r[i] == files[i]
  {
    Take(files, MaxPhotos)
  }

  /** `xs.slice(0, n)` on a list. */
  function Take<T>(xs: seq<T>, n: nat): seq<T> {
    if |xs| <= n then xs else xs[..n]
  }

  /** Selecting again changes nothing, and adding files after the fifth does not change the selection. */
  lemma SelectPhotosStable<T>(files: seq<T>, more: seq<T>)
    ensures SelectPhotos(SelectPhotos(files)) == SelectPhotos(files)
    ensures |files| >= MaxPhotos ==> SelectPhotos(files + more) == SelectPhotos(files)
  {
    if |files| >= MaxPhotos {
      assert (files + more)[..MaxPhotos] == files[..MaxPhotos];
    }
  }

  /** `b64(dataUrl)`: the text after the first comma, or the whole value when it has no comma. */
  function B64(dataUrl: string): (r: string)
    ensures ',' !in dataUrl ==> r == dataUrl
    ensures ',' in dataUrl ==>
              exists i :: 0 <= i < |dataUrl| && dataUrl[i] == ',' && ',' !in dataUrl[..i] && r == dataUrl[i + 1..]
  {
    var i := IndexOf(dataUrl, ',');
    if i >= 0 then dataUrl[i + 1..] else dataUrl
  }

  /** The header of a data URL carries no comma, so `b64` returns exactly the
      payload, commas in the payload included. */
  lemma B64RoundTrip(header: string, payload: string)
    requires ',' !in header
    ensures B64(header + "," + payload) == payload
  {
    var u := header + "," + payload;
    assert u[|header|] == ',';
    assert u[..|header|] == header;
    assert u[|header| + 1..] == payload;
  }

  /** A value without a comma is its own payload, so `b64` leaves it and its own result alone. */
  lemma B64IdempotentWithoutComma(payload: string)
    requires ',' !in payload
    ensures B64(B64(payload)) == payload
  {
  }

  /** The media type used when the file reports none. */
  const DefaultMime: string := "image/jpeg"

  /** One selected photo: the browser's media type for the file (empty when unknown) and its data URL. */
  datatype Photo = Photo(fileType: string, dataUrl: string)

  /** `{ inline_data: { mime_type: type || 'image/jpeg', data: b64(dataUrl) } }`. */
  function ImagePart(p: Photo): (r: JValue)
    ensures Get(Get(r, "inline_data"), "mime_type") == JStr(if p.fileType == "" then DefaultMime else p.fileType)
    ensures Get(Get(r, "inline_data"), "data") == JStr(B64(p.dataUrl))
  {
    var data := ("data", JStr(B64(p.dataUrl)));
    var inner := [("mime_type", JStr(if p.fileType == "" then DefaultMime else p.fileType)), data];
    assert "mime_type"[0] != "data"[0];
    assert inner[1..] == [data];
    assert Lookup(inner, "data") == Lookup(inner[1..], "data") == JStr(B64(p.dataUrl));
    JObj([("inline_data", JObj(inner))])
  }

  /** `images.map(...)`: one image part per photo, in the same order. */
  function ImageParts(photos: seq<Photo>): (r: seq<JValue>)
    ensures |r| == |photos|
    ensures forall i :: 0 <= i < |r| ==> r[i] == ImagePart(photos[i])
  {
    seq(|photos|, i requires 0 <= i < |photos| => ImagePart(photos[i]))
  }

  /** A photo read as `data:<type>;base64,<payload>` is sent with its payload and its type. */
  lemma ImagePartCarriesPayload(fileType: string, header: string, payload: string)
    requires ',' !in header
    ensures Get(Get(ImagePart(Photo(fileType, header + "," + payload)), "inline_data"), "data") == JStr(payload)
  {
    B64RoundTrip(header, payload);
  }
}

=== FILE: prompt.dfy ===
/** The request builders of prompt-patch-v1.js: the instruction text, the
    JSON shell sent to the model, and the single user turn that carries the
    images and that shell. `JSON.stringify` is a parameter. Lines are joined
    with the two characters backslash and `n`, not with a line break. */
module Prompt {
  import opened Wrappers
  import opened Strings
  import opened JsValue

  /** The separator `"\\n"` of the source: a backslash followed by `n`. */
  const Sep: string := "\\n"

  lemma SepIsBackslashN()
    ensures Sep == ['\\', 'n'] && '\n' !in Sep
  {
  }

  /** The label in front of the selected goals. */
  const GoalsLabel: string := "• GOALS_SELECTED_JSON: "

  /** The eight instruction lines before the goals line. */
  const LinesBeforeGoals: seq<string> := [
    "STRICT CONTRACT:",
    "• Score exactly 20 criteria (P1..O20) on 1–5 (step 0.25).",
    "• For EACH criterion: (a) score, (b) rationale_140 ≤140 chars ending with 1 micro-fix, (c) 4 expert tips: plastic_surgeon, makeup_artist, health_coach, exec_dating_coach. Never write N/A; if no change, write a 1-sentence Maintain plan.",
    "• PER-IMAGE first: return per_image[] items {image_index, pose:front|three_quarter|profile|unknown, per_criterion: {code:number}, total_weighted:number}. THEN return aggregate.per_criterion as numeric means AND a top-level per_criterion object with detailed {score, rationale_140, tips{...}}.",
    "• DYNAMICS: If no smile/dynamic clip, down-weight Y16–Y18 by 50% in totals and set data_needed:['smile_clip'].",
    "• PERCENTILE: Use priors by sex/age/region; if priors unknown, cap at 97 and set provisional:true.",
    "• 12-WEEK PROTOCOL: Auto from lowest 3 criteria. Weeks1–4 Foundations+Topicals; Weeks5–8 add Aesthetics; Weeks9–12 add Long-Term only if those remain <3.5.",
    "• TONE: Optimistic not gushy; avoid superlatives unless score ≥4.75. Two nice/one hard truth is NOT needed anymore."
  ]

  /** The two instruction lines after the goals line. */
  const LinesAfterGoals: seq<string> := [
    "• VALIDATE BEFORE RETURN: (a) 20 rationales ≤140, (b) 80 expert tips present, (c) per_image length ≥3, (d) 12-week plan has ≥6 steps in weeks 9–12.",
    "OUTPUT JSON ONLY."
  ]

  /** `Array.isArray(goals) ? goals : []`. */
  function GoalsOrEmpty(goals: JValue): (r: JValue)
    ensures r.JArr?
    ensures goals.JArr? ==> r == goals
    ensures !goals.JArr? ==> r == JArr([])
  {
    if goals.JArr? then goals else JArr([])
  }

  /** The eleven instruction lines for a given goals text. */
  function InstructionLines(goalsJson: string): (r: seq<string>)
    ensures |r| == 11
    ensures r[0] == "STRICT CONTRACT:" && r[10] == "OUTPUT JSON ONLY."
    ensures r[8] == GoalsLabel + goalsJson
    ensures r[..8] == LinesBeforeGoals && r[9..] == LinesAfterGoals
  {
    LinesBeforeGoals + [GoalsLabel + goalsJson] + LinesAfterGoals
  }

  /** Joining lines around one middle line puts the separator on both sides of it. */
  lemma {:induction false} JoinAround(a: seq<string>, lead: string, x: string, b: seq<string>, sep: string)
    requires |a| > 0 && |b| > 0
    ensures Join(a + [lead + x] + b, sep) == (Join(a, sep) + sep + lead) + x + (sep + Join(b, sep))
  {
    var m := [lead + x];
    JoinAppend(a + m, b, sep);
    JoinAppend(a, m, sep);
    assert Join(m, sep) == lead + x;
  }

  /** Two keys that differ at one position are different keys. */
  lemma KeysDiffer(a: string, b: string, i: nat)
    requires i < |a| && i < |b| && a[i] != b[i]
    ensures a != b
  {
  }

  /** Each of five members with distinct keys is what a read of its key finds. */
  lemma GetOfFive(k0: string, k1: string, k2: string, k3: string, k4: string,
                  v0: JValue, v1: JValue, v2: JValue, v3: JValue, v4: JValue)
    requires k0 != k1 && k0 != k2 && k0 != k3 && k0 != k4
    requires k1 != k2 && k1 != k3 && k1 != k4
    requires k2 != k3 && k2 != k4 && k3 != k4
    ensures var o := JObj([(k0, v0), (k1, v1), (k2, v2), (k3, v3), (k4, v4)]);
            Get(o, k0) == v0 && Get(o, k1) == v1 && Get(o, k2) == v2 && Get(o, k3) == v3 && Get(o, k4) == v4
  {
    var ms := [(k0, v0), (k1, v1), (k2, v2), (k3, v3), (k4, v4)];
    GetMember(ms, 0);
    GetMember(ms, 1);
    GetMember(ms, 2);
    GetMember(ms, 3);
    GetMember(ms, 4);
  }

  /** The member at position `i` is what a read of its key finds when no earlier member has that key. */
  lemma GetMember(ms: seq<(string, JValue)>, i: nat)
    requires i < |ms| && forall j :: 0 <= j < i ==> ms[j].0 != ms[i].0
    ensures Get(JObj(ms), ms[i].0) == ms[i].1
  {
  }

  /** The fixed text before the goals JSON. */
  function InstructionHead(): string {
    Join(LinesBeforeGoals, Sep) + Sep + GoalsLabel
  }

  /** The fixed text after the goals JSON. */
  function InstructionTail(): string {
    Sep + Join(LinesAfterGoals, Sep)
  }

  /** `buildInstructionInline(goals)`: the instruction lines joined by the
      separator. The text is one fixed head, the goals JSON (of `[]` when the
      goals are not an array), and one fixed tail: nothing else depends on
      the goals. */
  function BuildInstructionInline(goals: JValue, stringify: Stringifier): (r: string)
    ensures r == InstructionHead() + stringify(GoalsOrEmpty(goals)) + InstructionTail()
  {
    var goalsJson := stringify(GoalsOrEmpty(goals));
    JoinAround(LinesBeforeGoals, GoalsLabel, goalsJson, LinesAfterGoals, Sep);
    Join(InstructionLines(goalsJson), Sep)
  }

  /** Goals that are not an array give the instruction text of no goals. */
  lemma InstructionIgnoresNonArrayGoals(goals: JValue, stringify: Stringifier)
    requires !goals.JArr?
    ensures BuildInstructionInline(goals, stringify) == BuildInstructionInline(JArr([]), stringify)
  {
  }

  /** The shape of answer the model is asked for. */
  const OutputSchema: JValue := JObj([
    ("per_image", JArr([JObj([("image_index", JNum(0.0)), ("pose", JStr("front|three_quarter|profile|unknown")),
                              ("per_criterion", JObj([])), ("total_weighted", JNum(0.0))])])),
    ("aggregate", JObj([("per_criterion", JObj([]))])),
    ("per_criterion", JObj([])),
    ("protocol", JObj([("weeks_1_4", JArr([])), ("weeks_5_8", JArr([])), ("weeks_9_12", JArr([]))])),
    ("percentile", JObj([("z", JNum(0.0)), ("pct", JNum(0.0)), ("provisional", JBool(false))])),
    ("data_needed", JArr([]))
  ])

  /** The region assumed when none is given. */
  const DefaultRegion: string := "US"

  /** The rubric sent when the page spec has none. */
  const EmptyRubric: JValue := JObj([("criteria", JArr([]))])

  /** The `inputs` object of the prompt, with its defaults filled in. */
  function PromptInputs(inputs: JValue): (r: JValue)
    ensures Get(r, "sex") == Get(inputs, "sex")
    ensures Get(r, "age") == Get(inputs, "age")
    ensures Truthy(Get(inputs, "ethnicity")) ==> Get(r, "ethnicity") == Get(inputs, "ethnicity")
    ensures !Truthy(Get(inputs, "ethnicity")) ==> Get(r, "ethnicity") == JStr("")
    ensures Truthy(Get(inputs, "region_standard")) ==> Get(r, "region_standard") == Get(inputs, "region_standard")
    ensures !Truthy(Get(inputs, "region_standard")) ==> Get(r, "region_standard") == JStr(DefaultRegion)
    ensures Get(r, "goals") == GoalsOrEmpty(Get(inputs, "goals"))
  {
    var ms := [("sex", Get(inputs, "sex")),
               ("age", Get(inputs, "age")),
               ("ethnicity", Or(Get(inputs, "ethnicity"), JStr(""))),
               ("region_standard", Or(Get(inputs, "region_standard"), JStr(DefaultRegion))),
               ("goals", GoalsOrEmpty(Get(inputs, "goals")))];
    KeysDiffer("sex", "age", 0);
    KeysDiffer("sex", "ethnicity", 0);
    KeysDiffer("sex", "region_standard", 0);
    KeysDiffer("sex", "goals", 0);
    KeysDiffer("age", "ethnicity", 0);
    KeysDiffer("age", "region_standard", 0);
    KeysDiffer("age", "goals", 0);
    KeysDiffer("ethnicity", "region_standard", 0);
    KeysDiffer("ethnicity", "goals", 0);
    KeysDiffer("region_standard", "goals", 0);
    GetOfFive("sex", "age", "ethnicity", "region_standard", "goals",
              ms[0].1, ms[1].1, ms[2].1, ms[3].1, ms[4].1);
    JObj(ms)
  }

  /** `spec && spec.rubric ? spec.rubric : { criteria: [] }`. */
  function PromptRubric(spec: JValue): (r: JValue)
    ensures Truthy(spec) && Truthy(Get(spec, "rubric")) ==> r == Get(spec, "rubric")
    ensures !(Truthy(spec) && Truthy(Get(spec, "rubric"))) ==> r == EmptyRubric
  {
    if Truthy(spec) && Truthy(Get(spec, "rubric")) then Get(spec, "rubric") else EmptyRubric
  }

  /** `buildPromptJSON(inputs, spec, goals)`: the version, the instruction
      text for `goals`, the inputs with their defaults, the rubric and the
      answer schema. Reading `inputs.sex` needs `inputs` to be neither `null`
      nor `undefined`. */
  function BuildPromptJSON(inputs: JValue, spec: JValue, goals: JValue, stringify: Stringifier): (r: JValue)
    requires !IsNullish(inputs)
    ensures Get(r, "spec_version") == JStr("1.0")
    ensures Get(r, "inline_spec") == JStr(BuildInstructionInline(goals, stringify))
    ensures Get(r, "inputs") == PromptInputs(inputs)
    ensures Get(r, "rubric") == PromptRubric(spec)
    ensures Get(r, "llm_output_schema") == OutputSchema
  {
    var ms := [("spec_version", JStr("1.0")),
               ("inline_spec", JStr(BuildInstructionInline(goals, stringify))),
               ("inputs", PromptInputs(inputs)),
               ("rubric", PromptRubric(spec)),
               ("llm_output_schema", OutputSchema)];
    KeysDiffer("spec_version", "inline_spec", 0);
    KeysDiffer("spec_version", "inputs", 0);
    KeysDiffer("spec_version", "rubric", 0);
    KeysDiffer("spec_version", "llm_output_schema", 0);
    assert |"inline_spec"| != |"inputs"|;
    KeysDiffer("inline_spec", "rubric", 0);
    KeysDiffer("inline_spec", "llm_output_schema", 0);
    KeysDiffer("inputs", "rubric", 0);
    KeysDiffer("inputs", "llm_output_schema", 0);
    KeysDiffer("rubric", "llm_output_schema", 0);
    GetOfFive("spec_version", "inline_spec", "inputs", "rubric", "llm_output_schema",
              ms[0].1, ms[1].1, ms[2].1, ms[3].1, ms[4].1);
    JObj(ms)
  }

  /** An empty region and an absent ethnicity are sent as `"US"` and `""`, and non-array goals as `[]`. */
  lemma {:induction false} PromptDefaults(sex: JValue, age: JValue, goals: JValue, spec: JValue, stringify: Stringifier)
    requires !goals.JArr?
    ensures var p := BuildPromptJSON(JObj([("sex", sex), ("age", age), ("region_standard", JStr("")), ("goals", goals)]),
                                     spec, goals, stringify);
            && Get(Get(p, "inputs"), "region_standard") == JStr(DefaultRegion)
            && Get(Get(p, "inputs"), "ethnicity") == JStr("")
            && Get(Get(p, "inputs"), "goals") == JArr([])
            && Get(Get(p, "inputs"), "sex") == sex
            && Get(Get(p, "inputs"), "age") == age
  {
    var inputs := JObj([("sex", sex), ("age", age), ("region_standard", JStr("")), ("goals", goals)]);
    SampleInputsReads(sex, age, goals);
    DefaultedInputs(inputs);
  }

  /** An `inputs` object with no ethnicity, an empty region and goals that are
      not a list is sent with the defaults filled in. */
  lemma DefaultedInputs(inputs: JValue)
    requires Get(inputs, "ethnicity") == JUndefined && Get(inputs, "region_standard") == JStr("")
    requires !Get(inputs, "goals").JArr?
    ensures var r := PromptInputs(inputs);
            && Get(r, "region_standard") == JStr(DefaultRegion) && Get(r, "ethnicity") == JStr("")
            && Get(r, "goals") == JArr([]) && Get(r, "sex") == Get(inputs, "sex") && Get(r, "age") == Get(inputs, "age")
  {
  }

  /** The reads of an `inputs` object with an empty region and no ethnicity. */
  lemma SampleInputsReads(sex: JValue, age: JValue, goals: JValue)
    ensures var inputs := JObj([("sex", sex), ("age", age), ("region_standard", JStr("")), ("goals", goals)]);
            && Get(inputs, "sex") == sex && Get(inputs, "age") == age
            && Get(inputs, "region_standard") == JStr("") && Get(inputs, "goals") == goals
            && Get(inputs, "ethnicity") == JUndefined
  {
    var ms := [("sex", sex), ("age", age), ("region_standard", JStr("")), ("goals", goals)];
    KeysDiffer("sex", "age", 0);
    assert |"region_standard"| != |"sex"| && |"region_standard"| != |"age"|;
    assert |"goals"| != |"sex"| && |"goals"| != |"age"| && |"goals"| != |"region_standard"|;
    GetMember(ms, 1);
    GetMember(ms, 2);
    GetMember(ms, 3);
    assert |"ethnicity"| != |"sex"| && |"ethnicity"| != |"age"|;
    assert |"ethnicity"| != |"region_standard"| && |"ethnicity"| != |"goals"|;
  }

  /** The three header lines in front of the JSON shell. */
  const HeaderLines: seq<string> := [
    "ROLES: Plastic Surgeon, Model Scout, Makeup Artist Expert, Health Coach, Executive & Online Dating Coach.",
    "CALIBRATION: Optimistic but fair. Harmony/symmetry prioritized; clip hype.",
    "TASK: Score 5-bucket/20-criteria rubric (1–5 step 0.25) across 3–5 photos, per-image first, then aggregate; output 4 expert blocks per criterion and a prioritized 12-week protocol."
  ]

  /** The single user turn `[{ role: "user", parts }]`. */
  function UserTurn(parts: seq<JValue>): (r: JValue)
    ensures r.JArr? && |r.items| == 1
    ensures Get(r.items[0], "role") == JStr("user") && Get(r.items[0], "parts") == JArr(parts)
  {
    var ms := [("role", JStr("user")), ("parts", JArr(parts))];
    KeysDiffer("role", "parts", 0);
    GetMember(ms, 1);
    JArr([JObj(ms)])
  }

  /** The `inputs` object `buildScoringContents` copies out of `params`:
      the four fields as they are and the goals when they are a list. */
  function ScoringInputs(params: JValue): (r: JValue)
    ensures r.JObj?
    ensures Get(r, "sex") == Get(params, "sex") && Get(r, "age") == Get(params, "age")
    ensures Get(r, "ethnicity") == Get(params, "ethnicity")
    ensures Get(r, "region_standard") == Get(params, "region_standard")
    ensures Get(r, "goals") == GoalsOrEmpty(Get(params, "goals"))
  {
    var ms := [("sex", Get(params, "sex")),
               ("age", Get(params, "age")),
               ("ethnicity", Get(params, "ethnicity")),
               ("region_standard", Get(params, "region_standard")),
               ("goals", GoalsOrEmpty(Get(params, "goals")))];
    KeysDiffer("sex", "age", 0);
    KeysDiffer("sex", "ethnicity", 0);
    KeysDiffer("sex", "region_standard", 0);
    KeysDiffer("sex", "goals", 0);
    KeysDiffer("age", "ethnicity", 0);
    KeysDiffer("age", "region_standard", 0);
    KeysDiffer("age", "goals", 0);
    KeysDiffer("ethnicity", "region_standard", 0);
    KeysDiffer("ethnicity", "goals", 0);
    KeysDiffer("region_standard", "goals", 0);
    GetOfFive("sex", "age", "ethnicity", "region_standard", "goals",
              ms[0].1, ms[1].1, ms[2].1, ms[3].1, ms[4].1);
    JObj(ms)
  }

  /** The shell's `inputs` for the scoring turn of `params`: sex and age as
      given, the ethnicity or `""`, the region or `US`, and the goals when
      they are a list. */
  lemma ShellInputsOfParams(params: JValue, spec: JValue, stringify: Stringifier)
    ensures var shell := BuildPromptJSON(ScoringInputs(params), spec, GoalsOrEmpty(Get(params, "goals")), stringify);
            var inputs := Get(shell, "inputs");
            && Get(inputs, "sex") == Get(params, "sex") && Get(inputs, "age") == Get(params, "age")
            && Get(inputs, "ethnicity") == (if Truthy(Get(params, "ethnicity")) then Get(params, "ethnicity") else JStr(""))
            && Get(inputs, "region_standard")
               == (if Truthy(Get(params, "region_standard")) then Get(params, "region_standard") else JStr(DefaultRegion))
            && Get(inputs, "goals") == GoalsOrEmpty(Get(params, "goals"))
  {
  }

  /** The text part: the header lines, the separator, then the JSON shell. */
  function PromptText(params: JValue, spec: JValue, stringify: Stringifier): string {
    var inputs := ScoringInputs(params);
    Join(HeaderLines, Sep) + Sep + stringify(BuildPromptJSON(inputs, spec, GoalsOrEmpty(Get(params, "goals")), stringify))
  }

  /** The text, in V8's wording, of the exception raised by reading
      `params.sex` when `params` is `null` or `undefined`. */
  function ParamsErrorText(params: JValue): string
    requires IsNullish(params)
  {
    "TypeError: Cannot read properties of " + (if params.JNull? then "null" else "undefined") + " (reading 'sex')"
  }

  /** `buildScoringContents(params, spec, imageParts)`: one user turn whose
      parts are a copy of the image parts, in order (none when they are not
      an array), followed by exactly one text part; when `params` is `null`
      or `undefined` the build throws and the turn carries only a text part
      describing the error. */
  function BuildScoringContents(params: JValue, spec: JValue, imageParts: JValue, stringify: Stringifier): (r: JValue)
    ensures r.JArr? && |r.items| == 1
    ensures Get(r.items[0], "role") == JStr("user")
    ensures !IsNullish(params) ==>
              Get(r.items[0], "parts")
              == JArr((if imageParts.JArr? then imageParts.items else [])
                      + [JObj([("text", JStr(PromptText(params, spec, stringify)))])])
    ensures IsNullish(params) ==>
              Get(r.items[0], "parts")
              == JArr([JObj([("text", JStr(stringify(JObj([("error", JStr("buildScoringContents_failed")),
                                                           ("message", JStr(ParamsErrorText(params)))]))))])])
  {
    if IsNullish(params) then
      UserTurn([JObj([("text", JStr(stringify(JObj([("error", JStr("buildScoringContents_failed")),
                                                   ("message", JStr(ParamsErrorText(params)))]))))])])
    else
      var parts := if imageParts.JArr? then imageParts.items else [];
      UserTurn(parts + [JObj([("text", JStr(PromptText(params, spec, stringify)))])])
  }

  /** The parts of a built turn: every image part in its original order, and
      the text part last, which starts with the header and the separator. */
  lemma ScoringContentsOrder(params: JValue, spec: JValue, images: seq<JValue>, stringify: Stringifier)
    requires !IsNullish(params)
    ensures var parts := Get(BuildScoringContents(params, spec, JArr(images), stringify).items[0], "parts");
            && parts.JArr? && |parts.items| == |images| + 1
            && parts.items[..|images|] == images
            && StartsWith(Get(parts.items[|images|], "text").s, Join(HeaderLines, Sep) + Sep)
  {
    var text := PromptText(params, spec, stringify);
    var head := Join(HeaderLines, Sep) + Sep;
    assert text[..|head|] == head;
    assert (images + [JObj([("text", JStr(text))])])[..|images|] == images;
  }

  /** Image parts that are not an array are dropped: only the text part is sent. */
  lemma ScoringContentsWithoutImages(params: JValue, spec: JValue, imageParts: JValue, stringify: Stringifier)
    requires !IsNullish(params) && !imageParts.JArr?
    ensures Get(BuildScoringContents(params, spec, imageParts, stringify).items[0], "parts")
            == Get(BuildScoringContents(params, spec, JArr([]), stringify).items[0], "parts")
  {
  }
}

=== FILE: render.dfy ===
/** What `renderAll` (app-v2.js) draws from the recovered answer, as data:
    the overall total, the percentile, the per-image totals, the bucket
    means and radar series, the table rows, the three protocol lists and the
    dynamics note. The drawing itself is not modelled; the exceptions the
    function can throw on a malformed answer are, because they decide which
    error panel the user sees. */
module Render {
  import opened Wrappers
  import opened Strings
  import opened JsValue
  import opened Rubric
  import opened Score
  import opened Buckets
  import opened Totals
  import opened Table
  import opened Gemini

  /** One per-image entry: its total on 0-100 and its pose label. */
  datatype ImageLine = ImageLine(total: real, pose: JValue)

  /** Everything `renderAll` shows. */
  datatype Rendered = Rendered(
    total: real,
    pct: Option<real>,
    provisional: bool,
    perImage: seq<ImageLine>,
    buckets: map<Bucket, real>,
    radar: map<Bucket, seq<Point>>,
    rows: seq<Row>,
    protocol: seq<seq<string>>,
    dataNeeded: bool)

  /** The text, in V8's wording, of the `TypeError` thrown by reading `prop` of `null` or `undefined`. */
  function ReadErrorText(v: JValue, prop: string): string
    requires IsNullish(v)
  {
    "TypeError: " + "Cannot read " + "properties of " + (if v.JNull? then "null" else "undefined")
    + " (reading '" + prop + "')"
  }

  /** The text, in V8's wording, of the `TypeError` thrown by `forEach` on a truthy value that is not an array. */
  const ForEachErrorText: string := "TypeError: " + "(items || []).forEach" + " is not a function"

  /** Every text `renderAll` can throw on an answer it cannot draw. */
  const RenderErrorTexts: set<string> := {
    ReadErrorText(JNull, "toFixed"),
    ReadErrorText(JNull, "total_weighted"),
    ReadErrorText(JUndefined, "total_weighted"),
    ForEachErrorText
  }

  /** The criteria the charts and the table use:
      `data.aggregate?.per_criterion || data.per_criterion || {}`. */
  function ChartCriteria(data: JValue): (pc: JValue)
    ensures Truthy(pc)
    ensures Truthy(Get(Get(data, "aggregate"), "per_criterion")) ==> pc == Get(Get(data, "aggregate"), "per_criterion")
    ensures !Truthy(Get(Get(data, "aggregate"), "per_criterion")) && Truthy(Get(data, "per_criterion")) ==>
              pc == Get(data, "per_criterion")
    ensures !Truthy(Get(Get(data, "aggregate"), "per_criterion")) && !Truthy(Get(data, "per_criterion")) ==>
              pc == JObj([])
  {
    Or(Get(Get(data, "aggregate"), "per_criterion"), Or(Get(data, "per_criterion"), JObj([])))
  }

  /** The per-image entries, in order, each with the per-image total as
      `renderAll` computes it (-25 for an item without one) and
      `it.pose || 'unknown'`; reading a field of a `null` item throws. */
  function ImageLines(items: seq<JValue>): (r: Result<seq<ImageLine>, Fault>)
    ensures r.Success? <==> forall i :: 0 <= i < |items| ==> !IsNullish(items[i])
    ensures r.Success? ==> |r.value| == |items|
    ensures r.Success? ==> forall i :: 0 <= i < |items| ==>
              r.value[i].total == PerImageTotalAsWritten(items[i]) && r.value[i].pose == Or(Get(items[i], "pose"), JStr("unknown"))
    ensures r.Failure? ==>
              exists i :: 0 <= i < |items| && IsNullish(items[i]) && (forall j :: 0 <= j < i ==> !IsNullish(items[j]))
                          && r.error == Thrown(ReadErrorText(items[i], "total_weighted"))
    decreases |items|
  {
    if |items| == 0 then Success([])
    else if IsNullish(items[0]) then Failure(Thrown(ReadErrorText(items[0], "total_weighted")))
    else
      var line := ImageLine(PerImageTotalAsWritten(items[0]), Or(Get(items[0], "pose"), JStr("unknown")));
      match ImageLines(items[1..])
      case Success(rest) =>
        assert forall i :: 1 <= i < |items| ==> items[i] == items[1..][i - 1];
        Success([line] + rest)
      case Failure(f) =>
        assert forall i :: 1 <= i < |items| ==> items[i] == items[1..][i - 1];
        Failure(f)
  }

  /** An item with a pose and no total is drawn at -25. */
  lemma ImageLineWithoutTotal()
    ensures ImageLines([JObj([("pose", JStr("front"))])]) == Success([ImageLine(-25.0, JStr("front"))])
  {
    var it := JObj([("pose", JStr("front"))]);
    MissingPerImageTotalExample();
    assert Get(it, "pose") == JStr("front") && Truthy(JStr("front"));
    var line := ImageLine(PerImageTotalAsWritten(it), Or(Get(it, "pose"), JStr("unknown")));
    assert line == ImageLine(-25.0, JStr("front"));
    assert ImageLines([it][1..]) == Success([]);
    assert [line] + [] == [line];
  }

  /** The `toFixed` error is told apart from the other errors `renderAll` can throw. */
  lemma ToFixedTextDistinct(v: JValue)
    requires IsNullish(v)
    ensures ReadErrorText(JNull, "toFixed") != ReadErrorText(v, "total_weighted")
    ensures ReadErrorText(JNull, "toFixed") != ForEachErrorText
  {
    assert |ReadErrorText(JNull, "toFixed")| == 61;
    assert |ForEachErrorText| == 50;
    assert |ReadErrorText(v, "total_weighted")| >= 68;
  }

  /** The lines of one protocol list: `(items || []).forEach`, each item shown
      as itself when it is a string and as its JSON text otherwise; a truthy
      value that is not an array throws. */
  function ProtocolLines(items: JValue, stringify: Stringifier): (r: Result<seq<string>, Fault>)
    ensures !Truthy(items) ==> r == Success([])
    ensures Truthy(items) && !items.JArr? ==> r == Failure(Thrown(ForEachErrorText))
    ensures items.JArr? ==> r.Success? && |r.value| == |items.items|
    ensures items.JArr? ==> forall i :: 0 <= i < |items.items| ==>
              r.value[i] == (if items.items[i].JStr? then items.items[i].s else stringify(items.items[i]))
  {
    if !Truthy(items) then Success([])
    else if items.JArr? then
      Success(seq(|items.items|, i requires 0 <= i < |items.items| =>
        if items.items[i].JStr? then items.items[i].s else stringify(items.items[i])))
    else Failure(Thrown(ForEachErrorText))
  }

  /** The three protocol fields, in the order they are filled. */
  const ProtocolFields: seq<string> := ["weeks_1_4", "weeks_5_8", "weeks_9_12"]

  /** The radar series of every bucket. */
  function RadarSeries(pc: JValue): (r: map<Bucket, seq<Point>>)
    ensures r.Keys == AllBuckets
    ensures forall b :: b in r ==> r[b] == RadarPoints(Entries(pc), b)
  {
    map b | b in AllBuckets :: RadarPoints(Entries(pc), b)
  }

  /** `Array.isArray(data.per_image) ? data.per_image : []`. */
  function PerImageItems(data: JValue): seq<JValue> {
    if Get(data, "per_image").JArr? then Get(data, "per_image").items else []
  }

  /** `data.protocol?.[field]` for the `k`-th protocol field. */
  function ProtocolField(data: JValue, k: nat): JValue
    requires k < |ProtocolFields|
  {
    Get(Get(data, "protocol"), ProtocolFields[k])
  }

  /** The three protocol lists, filled in field order: the first field that
      throws decides the failure, and otherwise each list holds its field's lines. */
  function Protocols(data: JValue, stringify: Stringifier): (r: Result<seq<seq<string>>, Fault>)
    ensures r.Success? ==> |r.value| == |ProtocolFields|
    ensures r.Failure? ==> r.error == Thrown(ForEachErrorText)
    ensures r.Success? <==> forall k :: 0 <= k < |ProtocolFields| ==> ProtocolLines(ProtocolField(data, k), stringify).Success?
    ensures r.Success? ==> forall k :: 0 <= k < |ProtocolFields| ==>
              ProtocolLines(ProtocolField(data, k), stringify) == Success(r.value[k])
    ensures forall k :: 0 <= k < |ProtocolFields| ==>
              (forall j :: 0 <= j < k ==> ProtocolLines(ProtocolField(data, j), stringify).Success?) &&
              ProtocolLines(ProtocolField(data, k), stringify).Failure? ==>
                r == Failure(ProtocolLines(ProtocolField(data, k), stringify).error)
  {
    match ProtocolLines(ProtocolField(data, 0), stringify)
    case Failure(f) => Failure(f)
    case Success(w1) =>
      match ProtocolLines(ProtocolField(data, 1), stringify)
      case Failure(f) => Failure(f)
      case Success(w2) =>
        match ProtocolLines(ProtocolField(data, 2), stringify)
        case Failure(f) => Failure(f)
        case Success(w3) => Success([w1, w2, w3])
  }

  /** `renderAll(data)` as data. It fails, with the exception's text, when
      there is no total to format, when a per-image item is `null`, or when a
      protocol field is truthy but not an array, in that order; otherwise it
      yields the total of `OverallTotal`, the charts and the table of the
      chosen criteria, and the rest of the answer's parts. */
  function Normalize(data: JValue, stringify: Stringifier): (r: Result<Rendered, Fault>)
    requires !IsNullish(data)
    ensures OverallTotal(data).None? <==> r == Failure(Thrown(ReadErrorText(JNull, "toFixed")))
    ensures r.Failure? ==> r.error.Thrown? && r.error.message in RenderErrorTexts
    ensures r.Success? ==> OverallTotal(data) == Some(r.value.total)
    ensures r.Success? ==> r.value.buckets == BucketMeans(ChartCriteria(data))
    ensures r.Success? ==> r.value.rows == TableRows(ChartCriteria(data))
    ensures r.Success? ==> |r.value.protocol| == 3
    ensures r.Success? ==>
              (r.value.pct.Some? <==> Get(Get(data, "percentile"), "pct").JNum?)
    ensures r.Success? ==>
              (r.value.dataNeeded <==> (Get(data, "data_needed").JArr? && |Get(data, "data_needed").items| > 0))
    ensures r.Success? ==> r.value == Assemble(data, r.value.total, r.value.perImage, r.value.protocol)
    ensures OverallTotal(data).Some? ==>
              var lines := ImageLines(PerImageItems(data));
              && (lines.Failure? ==> r == Failure(lines.error))
              && (r.Success? ==> lines == Success(r.value.perImage))
    ensures OverallTotal(data).Some? && ImageLines(PerImageItems(data)).Success? ==>
              var protocol := Protocols(data, stringify);
              && (protocol.Failure? ==> r == Failure(protocol.error))
              && (r.Success? ==> protocol == Success(r.value.protocol))
  {
    match OverallTotal(data)
    case None => Failure(Thrown(ReadErrorText(JNull, "toFixed")))
    case Some(total) => Draw(data, total, stringify)
  }

  /** The part of `renderAll` after the total is known: the per-image lines,
      then the protocol lists, the first exception deciding the failure,
      then the drawn parts. It never throws the `toFixed` error. */
  function Draw(data: JValue, total: real, stringify: Stringifier): (r: Result<Rendered, Fault>)
    ensures r.Failure? ==> r.error.Thrown? && r.error.message in RenderErrorTexts
    ensures r != Failure(Thrown(ReadErrorText(JNull, "toFixed")))
    ensures r.Success? ==> r.value == Assemble(data, total, r.value.perImage, r.value.protocol)
    ensures var lines := ImageLines(PerImageItems(data));
            && (lines.Failure? ==> r == Failure(lines.error))
            && (r.Success? ==> lines == Success(r.value.perImage))
    ensures ImageLines(PerImageItems(data)).Success? ==>
              var protocol := Protocols(data, stringify);
              && (protocol.Failure? ==> r == Failure(protocol.error))
              && (r.Success? ==> protocol == Success(r.value.protocol))
  {
    ToFixedTextDistinct(JNull);
    ToFixedTextDistinct(JUndefined);
    match ImageLines(PerImageItems(data))
    case Failure(f) => Failure(f)
    case Success(lines) =>
      match Protocols(data, stringify)
      case Failure(f) => Failure(f)
      case Success(protocol) => Success(Assemble(data, total, lines, protocol))
  }

  /** The drawn parts of an answer once its total, per-image lines and
      protocol lists are known: the percentile, the charts and table of the
      chosen criteria, and the dynamics note. */
  function Assemble(data: JValue, total: real, lines: seq<ImageLine>, protocol: seq<seq<string>>): (r: Rendered)
    ensures r.total == total && r.perImage == lines && r.protocol == protocol
    ensures r.buckets == BucketMeans(ChartCriteria(data)) && r.rows == TableRows(ChartCriteria(data))
    ensures r.pct.Some? <==> Get(Get(data, "percentile"), "pct").JNum?
    ensures r.pct.Some? ==> r.pct.value == Get(Get(data, "percentile"), "pct").n
    ensures r.dataNeeded <==> (Get(data, "data_needed").JArr? && |Get(data, "data_needed").items| > 0)
    ensures r.provisional <==> Truthy(Get(Get(data, "percentile"), "provisional"))
    ensures r.radar == RadarSeries(ChartCriteria(data))
  {
    var pctField := Get(Get(data, "percentile"), "pct");
    var pct := if pctField.JNum? then Some(pctField.n) else None;
    var provisional := Truthy(Get(Get(data, "percentile"), "provisional"));
    var pc := ChartCriteria(data);
    var needed := Get(data, "data_needed");
    Rendered(total, pct, provisional, lines, BucketMeans(pc), RadarSeries(pc), TableRows(pc),
             protocol, needed.JArr? && |needed.items| > 0)
  }

  /** The bucket of `b`'s mean is `c` when every entry resolves to `c` and
      some entry lies in the bucket. */
  lemma {:induction false} UniformBucketMean(es: seq<Entry>, c: real, b: Bucket, k: nat)
    requires forall i :: 0 <= i < |es| ==> ResolveScore(es[i].1) == Some(c)
    requires k < |es| && BucketOf(es[k].0) == Some(b)
    ensures Mean(ScoresIn(es, b)) == c
  {
    var xs := ScoresIn(es, b);
    ScoresInMembers(es, b, c);
    assert Counts(es[k], b);
    forall j | 0 <= j < |xs| ensures xs[j] == c {
      ScoresInMembers(es, b, xs[j]);
    }
    MeanConst(xs, c);
  }

  /** When every criterion score resolves to `c`, each bucket that holds a criterion has mean `c`. */
  lemma UniformBucketMeans(members: seq<Entry>, c: real)
    requires forall i :: 0 <= i < |members| ==> ResolveScore(members[i].1) == Some(c)
    ensures forall k :: 0 <= k < |members| && BucketOf(members[k].0).Some? ==>
              BucketMeans(JObj(members))[BucketOf(members[k].0).value] == c
  {
    assert CriterionEntries(JObj(members)) == members;
    forall k | 0 <= k < |members| && BucketOf(members[k].0).Some?
      ensures BucketMeans(JObj(members))[BucketOf(members[k].0).value] == c
    {
      UniformBucketMean(members, c, BucketOf(members[k].0).value, k);
    }
  }

  /** An answer with a total, no per-image list and no protocol always renders. */
  lemma PlainAnswerRenders(data: JValue, stringify: Stringifier)
    requires !IsNullish(data) && OverallTotal(data).Some?
    requires Get(data, "per_image") == JUndefined && Get(data, "protocol") == JUndefined
    ensures Normalize(data, stringify).Success?
  {
    assert ImageLines([]) == Success([]);
  }

  /** An answer without an explicit total, aggregate criteria, per-image
      list or protocol, whose top-level criterion scores all resolve to `c`,
      renders, with the total `c` on 0-100. */
  lemma {:induction false} NormalizeUniformScores(data: JValue, members: seq<Entry>, c: real, stringify: Stringifier)
    requires data.JObj? && Get(data, "per_criterion") == JObj(members) && |members| > 0
    requires Get(data, "aggregate") == JUndefined
    requires Get(data, "per_image") == JUndefined && Get(data, "protocol") == JUndefined
    requires forall i :: 0 <= i < |members| ==> ResolveScore(members[i].1) == Some(c)
    ensures var r := Normalize(data, stringify);
            r.Success? && r.value.total == ToHundred(c)
  {
    UniformTotal(data, members, c);
    PlainAnswerRenders(data, stringify);
  }

  /** Top-level criterion scores that all resolve to `c` give the total `c` on 0-100. */
  lemma UniformTotal(data: JValue, members: seq<Entry>, c: real)
    requires Get(data, "per_criterion") == JObj(members) && |members| > 0
    requires Get(data, "aggregate") == JUndefined
    requires forall i :: 0 <= i < |members| ==> ResolveScore(members[i].1) == Some(c)
    ensures OverallTotal(data) == Some(ToHundred(c))
  {
    assert Values(JObj(members)) == seq(|members|, i requires 0 <= i < |members| => members[i].1);
    TotalOfUniformScores(data, c);
  }

  /** Top-level criterion scores that all resolve to `c`, with no aggregate
      criteria, put `c` in every bucket chart that holds a criterion. */
  lemma UniformChartMeans(data: JValue, members: seq<Entry>, c: real)
    requires Get(data, "per_criterion") == JObj(members)
    requires Get(data, "aggregate") == JUndefined
    requires forall i :: 0 <= i < |members| ==> ResolveScore(members[i].1) == Some(c)
    ensures forall k :: 0 <= k < |members| && BucketOf(members[k].0).Some? ==>
              BucketMeans(ChartCriteria(data))[BucketOf(members[k].0).value] == c
  {
    assert ChartCriteria(data) == JObj(members);
    UniformBucketMeans(members, c);
  }
}

=== FILE: rubric.dfy ===
/** The fixed evaluation rubric (app-v2.js, `unifiedRubric`): twenty named
    criteria in five buckets, a criterion's bucket being the first character
    of its code. */
module Rubric {
  import opened Wrappers
  import opened Strings

  /** The five buckets: proportion, definition, skin, expression, overall. */
  datatype Bucket = P | D | S | Y | O

  const AllBuckets: set<Bucket> := {P, D, S, Y, O}

  /** The buckets in display order. */
  const BucketOrder: seq<Bucket> := [P, D, S, Y, O]

  /** The letter that names a bucket and starts its codes. */
  function Letter(b: Bucket): char {
    match b
    case P => 'P'
    case D => 'D'
    case S => 'S'
    case Y => 'Y'
    case O => 'O'
  }

  /** The bucket's place in the display order: the `order` table of `renderTable`. */
  function Rank(b: Bucket): (r: nat)
    ensures r < 5 && BucketOrder[r] == b
  {
    match b
    case P => 0
    case D => 1
    case S => 2
    case Y => 3
    case O => 4
  }

  /** The bucket a criterion code belongs to, read from its first character
      (`code[0]` looked up among the bucket letters); none for any other
      first character or for the empty code. */
  function BucketOf(code: string): (r: Option<Bucket>)
    ensures r.Some? ==> |code| > 0 && Letter(r.value) == code[0]
    ensures r.None? ==> forall b :: !(|code| > 0 && Letter(b) == code[0])
  {
    if |code| == 0 then None
    else match code[0]
      case 'P' => Some(P)
      case 'D' => Some(D)
      case 'S' => Some(S)
      case 'Y' => Some(Y)
      case 'O' => Some(O)
      case _ => None
  }

  /** `code.startsWith(letter)`, the radar charts' test, picks the same codes
      as the first-character test of the bucket averages. */
  lemma StartsWithLetterIffBucket(code: string, b: Bucket)
    ensures StartsWith(code, [Letter(b)]) <==> BucketOf(code) == Some(b)
  {
    if StartsWith(code, [Letter(b)]) {
      assert code[0] == code[..1][0] == Letter(b);
    }
    if BucketOf(code) == Some(b) {
      assert code[..1] == [code[0]];
    }
  }

  /** A code that starts with a digit, as the index keys of an array or a string do, is in no bucket. */
  lemma DigitCodeInNoBucket(code: string)
    requires |code| > 0 && IsDigit(code[0])
    ensures BucketOf(code) == None
  {
  }

  datatype Criterion = Criterion(code: string, name: string)

  /** The rubric, in the order the request lists it. */
  const Criteria: seq<Criterion> := [
    Criterion("P1", "Facial thirds balance"), Criterion("P2", "Facial fifths / width"),
    Criterion("P3", "Midface proportion"), Criterion("P4", "Feature spacing harmony"),
    Criterion("D5", "Jawline definition"), Criterion("D6", "Chin projection/width"),
    Criterion("D7", "Cheekbone prominence"), Criterion("D8", "Brow & supraorbital"),
    Criterion("S10", "Skin texture / pores"), Criterion("S11", "Pigmentation / tone even"),
    Criterion("S12", "Under-eye quality"), Criterion("S9", "Skin clarity (acne/redness)"),
    Criterion("Y13", "Gaze engagement"), Criterion("Y14", "Micro-expression control"),
    Criterion("Y15", "Head/neck posture line"), Criterion("Y16", "Smile harmony (tooth/lip)"),
    Criterion("O17", "Photographic framing"), Criterion("O18", "Lighting suitability"),
    Criterion("O19", "Grooming/styling fit"), Criterion("O20", "Overall facial harmony")
  ]

  /** The rubric has twenty criteria, four per bucket in display order, with distinct codes. */
  lemma RubricShape()
    ensures |Criteria| == 20
    ensures forall i :: 0 <= i < |Criteria| ==> BucketOf(Criteria[i].code) == Some(BucketOrder[i / 4])
    ensures forall i, j :: 0 <= i < j < |Criteria| ==> Criteria[i].code != Criteria[j].code
  {
  }

  /** The name listed for `code` among `cs`, if any. */
  function NameIn(cs: seq<Criterion>, code: string): (r: Option<string>)
    ensures r.Some? <==> exists i :: 0 <= i < |cs| && cs[i].code == code
    ensures forall i :: (0 <= i < |cs| && cs[i].code == code
                         && (forall j :: 0 <= j < i ==> cs[j].code != code)) ==> r == Some(cs[i].name)
    decreases |cs|
  {
    if |cs| == 0 then None
    else if cs[0].code == code then Some(cs[0].name)
    else
      var r := NameIn(cs[1..], code);
      assert forall i :: 0 < i < |cs| ==> cs[i] == cs[1..][i - 1];
      r
  }

  /** With distinct codes, each criterion's code finds that criterion's name. */
  lemma NameInDistinct(cs: seq<Criterion>, i: nat)
    requires i < |cs|
    requires forall j, k :: 0 <= j < k < |cs| ==> cs[j].code != cs[k].code
    ensures NameIn(cs, cs[i].code) == Some(cs[i].name)
  {
    assert forall j :: 0 <= j < i ==> cs[j].code != cs[i].code;
  }

  /** `FRIENDLY_NAME[code]`: the rubric's name for a code. */
  function FriendlyName(code: string): Option<string> {
    NameIn(Criteria, code)
  }

  /** Every rubric code has its rubric name, and codes outside the rubric have none. */
  lemma FriendlyNameOfRubric(i: nat, code: string)
    requires i < |Criteria|
    ensures FriendlyName(Criteria[i].code) == Some(Criteria[i].name)
    ensures (forall k :: 0 <= k < |Criteria| ==> Criteria[k].code != code) ==> FriendlyName(code) == None
  {
    RubricShape();
    NameInDistinct(Criteria, i);
  }
}

=== FILE: score.dfy ===
/** Reading one criterion out of the model's loosely shaped answer: its score,
    its display name, its rationale and its four expert tips. A criterion is
    either a bare number or an object that carries those parts under one of
    several field names, tried in a fixed order. */
module Score {
  import opened Wrappers
  import opened Strings
  import opened JsValue
  import opened Rubric

  /** The fields that may hold a criterion's score, in the order they are tried. */
  const ScoreFields: seq<string> := ["score", "value", "avg"]

  /** The fields that may hold a criterion's rationale, in the order they are tried. */
  const RationaleFields: seq<string> := ["rationale_140", "why", "rationale"]

  /** The four expert roles of a criterion's `tips` object, in display order. */
  const TipRoles: seq<string> := ["plastic_surgeon", "makeup_artist", "health_coach", "exec_dating_coach"]

  /** The mark shown for a missing tip (an em dash). */
  const Placeholder: string := "\U{2014}"

  /** `typeof v === 'number'`. */
  predicate IsNumber(v: JValue) {
    v.JNum?
  }

  /** The position of the first of `fields` whose value on `v` passes `accept`. */
  function FirstField(v: JValue, fields: seq<string>, accept: JValue -> bool): (r: Option<nat>)
    ensures r.Some? ==> r.value < |fields| && accept(Get(v, fields[r.value]))
    ensures r.Some? ==> forall j :: 0 <= j < r.value ==> !accept(Get(v, fields[j]))
    ensures r.None? ==> forall j :: 0 <= j < |fields| ==> !accept(Get(v, fields[j]))
    decreases |fields|
  {
    if |fields| == 0 then None
    else if accept(Get(v, fields[0])) then Some(0)
    else match FirstField(v, fields[1..], accept)
      case None => None
      case Some(i) => Some(i + 1)
  }

  /** The score of a criterion value: a bare number is its own score; otherwise
      the first numeric field among `score`, `value`, `avg`; otherwise none. */
  function ResolveScore(v: JValue): (r: Option<real>)
    ensures v.JNum? ==> r == Some(v.n)
    ensures !v.JNum? ==> (r.Some? <==> exists i :: 0 <= i < |ScoreFields| && Get(v, ScoreFields[i]).JNum?)
    ensures !v.JNum? && r.Some? ==>
              exists i :: 0 <= i < |ScoreFields| && Get(v, ScoreFields[i]) == JNum(r.value)
                          && forall j :: 0 <= j < i ==> !Get(v, ScoreFields[j]).JNum?
  {
    if v.JNum? then Some(v.n)
    else match FirstField(v, ScoreFields, IsNumber)
      case Some(i) => Some(Get(v, ScoreFields[i]).n)
      case None => None
  }

  /** The conditional chain written out in `bucketAverages` and `renderAll`
      (`typeof obj?.score === 'number' ? obj.score : ...`). */
  function ResolveScoreChain(v: JValue): Option<real> {
    if v.JNum? then Some(v.n)
    else if Get(v, "score").JNum? then Some(Get(v, "score").n)
    else if Get(v, "value").JNum? then Some(Get(v, "value").n)
    else if Get(v, "avg").JNum? then Some(Get(v, "avg").n)
    else None
  }

  /** The chain of `renderTable`, which guards each property read with the
      truthiness of the value instead of optional chaining. */
  function ResolveScoreGuarded(v: JValue): Option<real> {
    if v.JNum? then Some(v.n)
    else if Truthy(v) && Get(v, "score").JNum? then Some(Get(v, "score").n)
    else if Truthy(v) && Get(v, "value").JNum? then Some(Get(v, "value").n)
    else if Truthy(v) && Get(v, "avg").JNum? then Some(Get(v, "avg").n)
    else None
  }

  /** The ordered field list and the three chains written in the source agree on every value. */
  lemma ResolveScoreAgreesWithChains(v: JValue)
    ensures ResolveScore(v) == ResolveScoreChain(v)
    ensures ResolveScore(v) == ResolveScoreGuarded(v)
  {
  }

  /** A bare number and an object carrying it under `score`, `value` or `avg` all resolve to it. */
  lemma ScoreShapesAgree(x: real)
    ensures ResolveScore(JNum(x)) == Some(x)
    ensures ResolveScore(JObj([("score", JNum(x))])) == Some(x)
    ensures ResolveScore(JObj([("value", JNum(x))])) == Some(x)
    ensures ResolveScore(JObj([("avg", JNum(x))])) == Some(x)
  {
  }

  /** A non-numeric earlier field is skipped; a numeric earlier field wins. */
  lemma ScoreFieldPriority(x: real, y: real)
    ensures ResolveScore(JObj([("score", JStr("4")), ("value", JNum(x))])) == Some(x)
    ensures ResolveScore(JObj([("avg", JNum(y)), ("value", JNum(x))])) == Some(x)
    ensures ResolveScore(JObj([("value", JNum(y)), ("score", JNum(x))])) == Some(x)
  {
    assert "score"[0] != "value"[0] && "score"[0] != "avg"[0] && "value"[0] != "avg"[0];
    var v1 := JObj([("score", JStr("4")), ("value", JNum(x))]);
    assert v1.members[1..] == [("value", JNum(x))];
    assert Lookup(v1.members, "value") == Lookup(v1.members[1..], "value") == JNum(x);
    assert Get(v1, "score") == JStr("4") && Get(v1, "value") == JNum(x);
    ResolveScoreAgreesWithChains(v1);
    var v2 := JObj([("avg", JNum(y)), ("value", JNum(x))]);
    assert v2.members[1..] == [("value", JNum(x))];
    assert Lookup(v2.members, "value") == Lookup(v2.members[1..], "value") == JNum(x);
    assert Get(v2, "score") == JUndefined && Get(v2, "value") == JNum(x);
    ResolveScoreAgreesWithChains(v2);
    var v3 := JObj([("value", JNum(y)), ("score", JNum(x))]);
    assert v3.members[1..] == [("score", JNum(x))];
    assert Lookup(v3.members, "score") == Lookup(v3.members[1..], "score") == JNum(x);
    assert Get(v3, "score") == JNum(x);
    ResolveScoreAgreesWithChains(v3);
  }

  /** Strings, booleans, `null`, arrays and objects without a numeric score field resolve to none. */
  lemma UnresolvableValues(s: string, b: bool, items: seq<JValue>)
    ensures ResolveScore(JStr(s)) == None
    ensures ResolveScore(JBool(b)) == None
    ensures ResolveScore(JNull) == None
    ensures ResolveScore(JArr(items)) == None
    ensures ResolveScore(JObj([("score", JNull), ("name", JNum(5.0))])) == None
  {
  }

  /** The label of a criterion: the value's own truthy `name`, else the
      rubric's name for the code, else the code itself. */
  function DisplayName(code: string, raw: JValue): (r: JValue)
    ensures Truthy(Get(raw, "name")) ==> r == Get(raw, "name")
    ensures !Truthy(Get(raw, "name")) ==>
              r == JStr(if FriendlyName(code).Some? && |FriendlyName(code).value| > 0
                        then FriendlyName(code).value else code)
  {
    if Truthy(raw) && IsObjectType(raw) && Truthy(Get(raw, "name")) then Get(raw, "name")
    else Or(if FriendlyName(code).Some? then JStr(FriendlyName(code).value) else JUndefined, JStr(code))
  }

  /** A criterion without its own name is labelled with the rubric's name for its code. */
  lemma DisplayNameFromRubric(code: string, name: string, raw: JValue)
    requires FriendlyName(code) == Some(name) && |name| > 0
    requires !Truthy(Get(raw, "name"))
    ensures DisplayName(code, raw) == JStr(name)
  {
  }

  /** The rationale shown for a criterion: the first truthy field among
      `rationale_140`, `why`, `rationale`, else the empty string. */
  function Rationale(raw: JValue): (r: JValue)
    ensures r == JStr("") || Truthy(r)
    ensures Truthy(r) ==> exists i :: 0 <= i < |RationaleFields| && Get(raw, RationaleFields[i]) == r
                                      && forall j :: 0 <= j < i ==> !Truthy(Get(raw, RationaleFields[j]))
    ensures !Truthy(r) <==> forall i :: 0 <= i < |RationaleFields| ==> !Truthy(Get(raw, RationaleFields[i]))
  {
    if Truthy(raw) && IsObjectType(raw) then
      match FirstField(raw, RationaleFields, Truthy)
      case Some(i) => Get(raw, RationaleFields[i])
      case None => JStr("")
    else JStr("")
  }

  /** The four tips of a criterion, one per role in `TipRoles` order: the
      role's truthy entry in the value's `tips` object, else the placeholder.
      A tip is never blank. */
  function Tips(raw: JValue): (r: seq<JValue>)
    ensures |r| == |TipRoles|
    ensures forall k :: 0 <= k < |r| ==> Truthy(r[k])
    ensures forall k :: 0 <= k < |r| ==>
              r[k] == (if Truthy(Get(Get(raw, "tips"), TipRoles[k])) then Get(Get(raw, "tips"), TipRoles[k])
                       else JStr(Placeholder))
  {
    var tips := if Truthy(raw) && IsObjectType(raw) && Truthy(Get(raw, "tips")) && IsObjectType(Get(raw, "tips"))
                then Get(raw, "tips") else JObj([]);
    seq(|TipRoles|, k requires 0 <= k < |TipRoles| => Or(Get(tips, TipRoles[k]), JStr(Placeholder)))
  }
}

=== FILE: strings.dfy ===
/** The JavaScript string operations the client relies on: `trim`, `indexOf`,
    `lastIndexOf`, `slice`, `startsWith`, `join`, number-to-decimal conversion,
    substring search (a regular expression without metacharacters) and the
    order used to sort criterion codes. Strings are sequences of characters;
    every character the client inspects lies in the Basic Multilingual Plane,
    so one character stands for one UTF-16 code unit. */
module Strings {

  /** The characters `String.prototype.trim` removes: the WhiteSpace and
      LineTerminator characters of ECMAScript (section 12.2 and 12.3 of ECMA-262). */
  predicate IsJsSpace(c: char) {
    || c == '\t' || c == '\n' || c == '\U{000B}' || c == '\U{000C}' || c == '\r'
    || c == ' ' || c == '\U{00A0}' || c == '\U{1680}'
    || ('\U{2000}' <= c <= '\U{200A}')
    || c == '\U{2028}' || c == '\U{2029}' || c == '\U{202F}' || c == '\U{205F}'
    || c == '\U{3000}' || c == '\U{FEFF}'
  }

  /** `s` with its leading white space removed. */
  function TrimStart(s: string): (r: string)
    ensures |r| <= |s| && r == s[|s| - |r|..]
    ensures forall i :: 0 <= i < |s| - |r| ==> IsJsSpace(s[i])
    ensures |r| > 0 ==> !IsJsSpace(r[0])
    decreases |s|
  {
    if |s| > 0 && IsJsSpace(s[0]) then TrimStart(s[1..]) else s
  }

  /** `s` with its trailing white space removed. */
  function TrimEnd(s: string): (r: string)
    ensures |r| <= |s| && r == s[..|r|]
    ensures forall i :: |r| <= i < |s| ==> IsJsSpace(s[i])
    ensures |r| > 0 ==> !IsJsSpace(r[|r| - 1])
    decreases |s|
  {
    if |s| > 0 && IsJsSpace(s[|s| - 1]) then TrimEnd(s[..|s| - 1]) else s
  }

  /** `r` is the part of `s` that starts at `a`, and only white space surrounds it. */
  ghost predicate TrimmedAt(s: string, r: string, a: nat) {
    && a + |r| <= |s|
    && r == s[a..a + |r|]
    && (forall i :: 0 <= i < a ==> IsJsSpace(s[i]))
    && (forall i :: a + |r| <= i < |s| ==> IsJsSpace(s[i]))
  }

  /** JavaScript's `s.trim()`: the longest infix of `s` that neither starts
      nor ends with white space, surrounded in `s` by white space only. */
  function Trim(s: string): (r: string)
    ensures |r| > 0 ==> !IsJsSpace(r[0]) && !IsJsSpace(r[|r| - 1])
    ensures exists a :: TrimmedAt(s, r, a)
  {
    var t := TrimStart(s);
    var r := TrimEnd(t);
    assert TrimmedAt(s, r, |s| - |t|);
    r
  }

  /** Trimming twice is trimming once; the score flow trims the credential
      field and then validation trims it again. */
  lemma TrimIdempotent(s: string)
    ensures Trim(Trim(s)) == Trim(s)
  {
    var r := Trim(s);
    assert TrimStart(r) == r;
    assert TrimEnd(r) == r;
  }

  /** A string whose ends are not white space is its own trim. */
  lemma TrimOfTrimmed(s: string)
    requires |s| > 0 ==> !IsJsSpace(s[0]) && !IsJsSpace(s[|s| - 1])
    ensures Trim(s) == s
  {
    assert TrimStart(s) == s;
    assert TrimEnd(s) == s;
  }

  /** `s.startsWith(p)`. */
  predicate StartsWith(s: string, p: string) {
    |p| <= |s| && s[..|p|] == p
  }

  /** `p` occurs in `s` at position `i`. */
  predicate OccursAt(s: string, p: string, i: nat) {
    i + |p| <= |s| && s[i..i + |p|] == p
  }

  /** `p` occurs somewhere in `s` (a regular expression made of plain characters, tested with `test`). */
  predicate Contains(s: string, p: string) {
    exists i | 0 <= i <= |s| :: OccursAt(s, p, i)
  }

  /** No character of `s` is `c`. */
  predicate NoChar(s: string, c: char) {
    forall i :: 0 <= i < |s| ==> s[i] != c
  }

  /** An occurrence in a part is an occurrence in the whole. */
  lemma ContainsInConcat(a: string, b: string, p: string)
    ensures Contains(a, p) ==> Contains(a + b, p)
    ensures Contains(b, p) ==> Contains(a + b, p)
  {
    if Contains(a, p) {
      var i :| 0 <= i <= |a| && OccursAt(a, p, i);
      assert (a + b)[i..i + |p|] == a[i..i + |p|];
      assert OccursAt(a + b, p, i);
    }
    if Contains(b, p) {
      var i :| 0 <= i <= |b| && OccursAt(b, p, i);
      assert (a + b)[|a| + i..|a| + i + |p|] == b[i..i + |p|];
      assert OccursAt(a + b, p, |a| + i);
    }
  }

  /** A pattern cannot occur in a string that lacks its first character. */
  lemma NotContainsWithoutHead(s: string, p: string)
    requires |p| > 0 && NoChar(s, p[0])
    ensures !Contains(s, p)
  {
    forall i | 0 <= i <= |s|
      ensures !OccursAt(s, p, i)
    {
      if i + |p| <= |s| {
        assert s[i..i + |p|][0] == s[i] != p[0];
      }
    }
  }

  /** After a prefix that lacks the pattern's first character, the pattern
      occurs in the whole exactly when it occurs in the rest. */
  lemma ContainsPastPrefix(p: string, b: string, m: string)
    requires |m| > 0 && NoChar(p, m[0])
    ensures Contains(p + b, m) <==> Contains(b, m)
  {
    ContainsInConcat(p, b, m);
    if Contains(p + b, m) {
      var i :| 0 <= i <= |p + b| && OccursAt(p + b, m, i);
      assert (p + b)[i..i + |m|][0] == (p + b)[i] == m[0];
      assert i >= |p|;
      assert b[i - |p|..i - |p| + |m|] == (p + b)[i..i + |m|];
      assert OccursAt(b, m, i - |p|);
    }
  }

  /** A character absent from both parts is absent from their concatenation. */
  lemma NoCharConcat(a: string, b: string, c: char)
    requires NoChar(a, c) && NoChar(b, c)
    ensures NoChar(a + b, c)
  {
  }

  /** `s.indexOf(c)`: the first position of `c` in `s`, or -1. */
  function IndexOf(s: string, c: char): (r: int)
    ensures -1 <= r < |s|
    ensures r == -1 <==> c !in s
    ensures r >= 0 ==> s[r] == c && c !in s[..r]
    decreases |s|
  {
    if |s| == 0 then -1
    else if s[0] == c then 0
    else
      var k := IndexOf(s[1..], c);
      if k == -1 then -1
      else
        assert s[..k + 1] == [s[0]] + s[1..][..k];
        k + 1
  }

  /** `s.lastIndexOf(c)`: the last position of `c` in `s`, or -1. */
  function LastIndexOf(s: string, c: char): (r: int)
    ensures -1 <= r < |s|
    ensures r >= 0 ==> s[r] == c
    ensures forall j :: r < j < |s| ==> s[j] != c
    decreases |s|
  {
    if |s| == 0 then -1
    else if s[|s| - 1] == c then |s| - 1
    else LastIndexOf(s[..|s| - 1], c)
  }

  /** `t.slice(from, to)` for non-negative bounds: positions past the end are
      clamped to the end, and a range whose end precedes its start is empty. */
  function Slice(t: string, from: nat, to: nat): (r: string)
    ensures from <= to <= |t| ==> r == t[from..to]
    ensures to <= from ==> r == ""
  {
    var f := if from < |t| then from else |t|;
    var e := if to < |t| then to else |t|;
    if e <= f then "" else t[f..e]
  }

  /** `lines.join(sep)`. */
  function Join(lines: seq<string>, sep: string): string
    decreases |lines|
  {
    if |lines| == 0 then ""
    else if |lines| == 1 then lines[0]
    else lines[0] + sep + Join(lines[1..], sep)
  }

  /** Joining two non-empty runs of lines is joining each and putting one separator between. */
  lemma {:induction false} JoinAppend(a: seq<string>, b: seq<string>, sep: string)
    requires |a| > 0 && |b| > 0
    ensures Join(a + b, sep) == Join(a, sep) + sep + Join(b, sep)
    decreases |a|
  {
    if |a| == 1 {
      assert (a + b)[1..] == b;
    } else {
      assert (a + b)[1..] == a[1..] + b;
      JoinAppend(a[1..], b, sep);
    }
  }

  /** The joined text holds no character that neither a line nor the separator holds. */
  lemma {:induction false} JoinNoChar(lines: seq<string>, sep: string, c: char)
    requires NoChar(sep, c)
    requires forall k :: 0 <= k < |lines| ==> NoChar(lines[k], c)
    ensures NoChar(Join(lines, sep), c)
    decreases |lines|
  {
    if |lines| > 1 {
      JoinNoChar(lines[1..], sep, c);
      NoCharConcat(lines[0], sep, c);
      NoCharConcat(lines[0] + sep, Join(lines[1..], sep), c);
    }
  }

  /** The decimal digit character for `d`. */
  function DigitChar(d: nat): (c: char)
    requires d < 10
    ensures '0' <= c <= '9'
  {
    (48 + d) as char
  }

  predicate IsDigit(c: char) {
    '0' <= c <= '9'
  }

  /** The value of a string of decimal digits. */
  function DigitsValue(s: string): nat
    requires forall i :: 0 <= i < |s| ==> IsDigit(s[i])
    decreases |s|
  {
    if |s| == 0 then 0
    else
      assert IsDigit(s[|s| - 1]);
      DigitsValue(s[..|s| - 1]) * 10 + (s[|s| - 1] as int - '0' as int)
  }

  /** `String(n)` for a non-negative integer: its decimal digits without leading zeros. */
  function NatToString(n: nat): (r: string)
    ensures |r| > 0
    ensures forall i :: 0 <= i < |r| ==> IsDigit(r[i])
    ensures r[0] == '0' ==> n == 0
  {
    if n < 10 then [DigitChar(n)] else NatToString(n / 10) + [DigitChar(n % 10)]
  }

  /** Reading the decimal digits back gives the number. */
  lemma {:induction false} NatToStringRoundTrip(n: nat)
    ensures DigitsValue(NatToString(n)) == n
  {
    if n >= 10 {
      var r := NatToString(n);
      assert r[..|r| - 1] == NatToString(n / 10);
      NatToStringRoundTrip(n / 10);
    }
  }

  /** Distinct numbers have distinct decimal forms, so index keys never collide. */
  lemma NatToStringInjective(m: nat, n: nat)
    requires NatToString(m) == NatToString(n)
    ensures m == n
  {
    NatToStringRoundTrip(m);
    NatToStringRoundTrip(n);
  }

  /** Lexicographic order on characters: `a` is a prefix of `b`, or the first
      difference has the smaller character in `a`. */
  predicate LexLe(a: string, b: string)
    decreases |a|
  {
    |a| == 0 || (|b| > 0 && (a[0] < b[0] || (a[0] == b[0] && LexLe(a[1..], b[1..]))))
  }

  lemma {:induction false} LexLeTotal(a: string, b: string)
    ensures LexLe(a, b) || LexLe(b, a)
    decreases |a|
  {
    if |a| > 0 && |b| > 0 && a[0] == b[0] {
      LexLeTotal(a[1..], b[1..]);
    }
  }

  lemma {:induction false} LexLeTransitive(a: string, b: string, c: string)
    requires LexLe(a, b) && LexLe(b, c)
    ensures LexLe(a, c)
    decreases |a|
  {
    if |a| > 0 && a[0] == b[0] && b[0] == c[0] {
      LexLeTransitive(a[1..], b[1..], c[1..]);
    }
  }

  lemma {:induction false} LexLeAntisymmetric(a: string, b: string)
    requires LexLe(a, b) && LexLe(b, a)
    ensures a == b
    decreases |a|
  {
    if |a| > 0 {
      LexLeAntisymmetric(a[1..], b[1..]);
      assert a == [a[0]] + a[1..];
      assert b == [b[0]] + b[1..];
    }
  }

  /** ASCII lower-casing, the only case mapping a non-Unicode `/i` regular
      expression applies to the ASCII letters it is asked to match. */
  function LowerAscii(c: char): char {
    if 'A' <= c <= 'Z' then (c as int + 32) as char else c
  }

  /** `s` starts with `p` ignoring ASCII case, where `p` is written in lower case. */
  predicate StartsWithIgnoreCase(s: string, p: string) {
    |p| <= |s| && forall i :: 0 <= i < |p| ==> LowerAscii(s[i]) == p[i]
  }
}

=== FILE: table.dfy ===
/** The detail table of `renderTable` (app-v2.js): one row per criterion of
    the chosen `per_criterion` object, ordered by bucket and then by code,
    each row carrying the criterion's label, score, rationale and tips. */
module Table {
  import opened Wrappers
  import opened Strings
  import opened JsValue
  import opened Rubric
  import opened Score
  import opened Buckets

  /** `a.localeCompare(b)`, taken to be plain lexicographic order on characters. */
  function LexCompare(a: string, b: string): (r: int)
    ensures r == 0 <==> a == b
    ensures r < 0 <==> LexLe(a, b) && a != b
    ensures r > 0 <==> LexLe(b, a) && a != b
  {
    LexLeTotal(a, b);
    if a == b then 0
    else if LexLe(a, b) then
      assert !LexLe(b, a) by {
        if LexLe(b, a) { LexLeAntisymmetric(a, b); }
      }
      -1
    else 1
  }

  /** The comparator of `renderTable` as written,
      `order[a[0]] - order[b[0]] || a.localeCompare(b)`: the bucket ranks
      decide when they differ; a code outside the buckets makes the
      difference NaN, which `||` passes over exactly as it does 0, so the
      string comparison decides. */
  function CompareAsWritten(a: string, b: string): int {
    var ra := BucketOf(a);
    var rb := BucketOf(b);
    if ra.Some? && rb.Some? && Rank(ra.value) != Rank(rb.value) then Rank(ra.value) - Rank(rb.value)
    else LexCompare(a, b)
  }

  /** As written, the comparator is not transitive once a code falls outside
      the five buckets: S1 sorts before O1 by bucket, O1 before Q1 and Q1
      before S1 by string order, so the resulting order is left to the sort
      implementation. */
  lemma CompareAsWrittenNotTransitive()
    ensures CompareAsWritten("S1", "O1") < 0
    ensures CompareAsWritten("O1", "Q1") < 0
    ensures CompareAsWritten("Q1", "S1") < 0
  {
    assert LexLe("O1", "Q1") && LexLe("Q1", "S1");
  }

  /** A code's place in the table order: its bucket's rank, and after every
      bucket for a code outside them. */
  function CodeRank(code: string): (r: nat)
    ensures r <= 5
    ensures BucketOf(code).Some? ==> r == Rank(BucketOf(code).value)
    ensures BucketOf(code).None? ==> r == 5
  {
    match BucketOf(code)
    case Some(b) => Rank(b)
    case None => 5
  }

  /** The table order with codes outside the buckets ranked last: by rank, then by string order. */
  predicate CodeLe(a: string, b: string) {
    CodeRank(a) < CodeRank(b) || (CodeRank(a) == CodeRank(b) && LexLe(a, b))
  }

  lemma CodeLeTotal(a: string, b: string)
    ensures CodeLe(a, b) || CodeLe(b, a)
  {
    LexLeTotal(a, b);
  }

  lemma CodeLeTransitive(a: string, b: string, c: string)
    requires CodeLe(a, b) && CodeLe(b, c)
    ensures CodeLe(a, c)
  {
    if CodeRank(a) == CodeRank(b) == CodeRank(c) {
      LexLeTransitive(a, b, c);
    }
  }

  lemma CodeLeAntisymmetric(a: string, b: string)
    requires CodeLe(a, b) && CodeLe(b, a)
    ensures a == b
  {
    LexLeAntisymmetric(a, b);
  }

  /** On codes of the five buckets the comparator as written and the table
      order agree: `a` sorts before `b` exactly when `a` precedes `b`. */
  lemma CompareAsWrittenAgrees(a: string, b: string)
    requires BucketOf(a).Some? && BucketOf(b).Some?
    ensures CompareAsWritten(a, b) < 0 <==> CodeLe(a, b) && a != b
    ensures CompareAsWritten(a, b) == 0 <==> a == b
  {
    if CodeLe(a, b) && CodeLe(b, a) {
      CodeLeAntisymmetric(a, b);
    }
  }

  /** `a` may come before `b` by the comparator as written: its result is not positive. */
  predicate WrittenLe(a: string, b: string) {
    CompareAsWritten(a, b) <= 0
  }

  /** Every pair of codes is comparable by the comparator as written. */
  lemma WrittenLeTotal(a: string, b: string)
    ensures WrittenLe(a, b) || WrittenLe(b, a)
  {
    if !WrittenLe(a, b) && !WrittenLe(b, a) {
      LexLeAntisymmetric(a, b);
    }
  }

  /** Two codes each allowed before the other are the same code. */
  lemma WrittenLeAntisymmetric(a: string, b: string)
    requires WrittenLe(a, b) && WrittenLe(b, a)
    ensures a == b
  {
    if a != b {
      LexLeAntisymmetric(a, b);
    }
  }

  /** On codes of the five buckets the comparator as written allows exactly the table order. */
  lemma WrittenLeOnBuckets(a: string, b: string)
    requires BucketOf(a).Some? && BucketOf(b).Some?
    ensures WrittenLe(a, b) <==> CodeLe(a, b)
  {
    CompareAsWrittenAgrees(a, b);
    if a == b {
      LexLeTotal(a, a);
    }
  }

  /** The codes of the entries. */
  function CodesOf(es: seq<Entry>): set<string> {
    set i | 0 <= i < |es| :: es[i].0
  }

  /** Every entry's code lies in `cs`. */
  ghost predicate CodesIn(es: seq<Entry>, cs: set<string>) {
    forall e :: e in es ==> e.0 in cs
  }

  /** `le` is a total order on the codes in `cs`: any two are comparable, it
      is transitive, and two codes each allowed before the other are equal. */
  ghost predicate OrdersCodes(le: (string, string) -> bool, cs: set<string>) {
    && (forall a, b :: a in cs && b in cs ==> le(a, b) || le(b, a))
    && (forall a, b, c :: a in cs && b in cs && c in cs && le(a, b) && le(b, c) ==> le(a, c))
    && (forall a, b :: a in cs && b in cs && le(a, b) && le(b, a) ==> a == b)
  }

  /** The table order is a total order on any set of codes. */
  lemma CodeLeOrders(cs: set<string>)
    ensures OrdersCodes(CodeLe, cs)
  {
    forall a, b | a in cs && b in cs ensures CodeLe(a, b) || CodeLe(b, a) {
      CodeLeTotal(a, b);
    }
    forall a, b, c | a in cs && b in cs && c in cs && CodeLe(a, b) && CodeLe(b, c) ensures CodeLe(a, c) {
      CodeLeTransitive(a, b, c);
    }
    forall a, b | a in cs && b in cs && CodeLe(a, b) && CodeLe(b, a) ensures a == b {
      CodeLeAntisymmetric(a, b);
    }
  }

  /** On codes of the five buckets the comparator as written is a total order. */
  lemma BucketCodesOrderedAsWritten(cs: set<string>)
    requires forall c :: c in cs ==> BucketOf(c).Some?
    ensures OrdersCodes(WrittenLe, cs)
  {
    CodeLeOrders(cs);
    forall a, b | a in cs && b in cs ensures WrittenLe(a, b) <==> CodeLe(a, b) {
      WrittenLeOnBuckets(a, b);
    }
  }

  /** Once a code lies outside the buckets, the comparator as written can
      order nothing: it allows S1 before O1 and O1 before Q1 but not S1
      before Q1. */
  lemma WrittenLeNotAnOrder()
    ensures !OrdersCodes(WrittenLe, {"S1", "O1", "Q1"})
  {
    CompareAsWrittenNotTransitive();
    assert !WrittenLe("S1", "Q1") by {
      assert LexLe("Q1", "S1");
      assert !LexLe("S1", "Q1");
    }
  }

  /** The entries are in the order `le` allows. */
  ghost predicate SortedBy(le: (string, string) -> bool, es: seq<Entry>) {
    forall i, j :: 0 <= i < j < |es| ==> le(es[i].0, es[j].0)
  }

  /** `e` placed into `es` before the first entry that `le` allows after it. */
  function InsertBy(le: (string, string) -> bool, e: Entry, es: seq<Entry>): (r: seq<Entry>)
    ensures |r| == |es| + 1
    ensures multiset(r) == multiset(es) + multiset{e}
    decreases |es|
  {
    if |es| == 0 then [e]
    else if le(e.0, es[0].0) then [e] + es
    else
      assert es == [es[0]] + es[1..];
      [es[0]] + InsertBy(le, e, es[1..])
  }

  /** Inserting into sorted entries keeps them sorted, whenever `le` orders their codes. */
  lemma {:induction false} InsertBySorted(le: (string, string) -> bool, cs: set<string>, e: Entry, es: seq<Entry>)
    requires OrdersCodes(le, cs) && e.0 in cs && CodesIn(es, cs) && SortedBy(le, es)
    ensures SortedBy(le, InsertBy(le, e, es))
    decreases |es|
  {
    if |es| == 0 {
    } else if le(e.0, es[0].0) {
      var r := [e] + es;
      forall i, j | 0 <= i < j < |r| ensures le(r[i].0, r[j].0) {
        if i == 0 && j > 1 {
          assert es[0] in es && es[j - 1] in es;
          assert le(es[0].0, es[j - 1].0);
        }
      }
    } else {
      assert es[0] in es;
      assert le(es[0].0, e.0);
      assert CodesIn(es[1..], cs) by {
        forall x | x in es[1..] ensures x.0 in cs {
          var m :| 0 <= m < |es[1..]| && es[1..][m] == x;
          assert es[m + 1] in es;
        }
      }
      InsertBySorted(le, cs, e, es[1..]);
      var rest := InsertBy(le, e, es[1..]);
      HeadBelowInserted(le, e, es, rest);
      ConsSorted(le, es[0], rest);
    }
  }

  /** The head of sorted entries that `e` may follow may precede every
      entry of `e` inserted into the tail. */
  lemma HeadBelowInserted(le: (string, string) -> bool, e: Entry, es: seq<Entry>, rest: seq<Entry>)
    requires |es| > 0 && SortedBy(le, es) && le(es[0].0, e.0)
    requires multiset(rest) == multiset(es[1..]) + multiset{e}
    ensures forall k :: 0 <= k < |rest| ==> le(es[0].0, rest[k].0)
  {
    forall k | 0 <= k < |rest| ensures le(es[0].0, rest[k].0) {
      assert rest[k] in multiset(rest);
      if rest[k] != e {
        assert rest[k] in multiset(es[1..]);
        var m :| 0 <= m < |es[1..]| && es[1..][m] == rest[k];
        assert es[m + 1] == rest[k];
      }
    }
  }

  /** An entry that may precede every entry of sorted entries, put in front, keeps them sorted. */
  lemma ConsSorted(le: (string, string) -> bool, h: Entry, rest: seq<Entry>)
    requires SortedBy(le, rest) && forall k :: 0 <= k < |rest| ==> le(h.0, rest[k].0)
    ensures SortedBy(le, [h] + rest)
  {
    var r := [h] + rest;
    forall i, j | 0 <= i < j < |r| ensures le(r[i].0, r[j].0) {
      if i > 0 {
        assert r[i] == rest[i - 1] && r[j] == rest[j - 1];
      }
    }
  }

  /** Insertion sort of the entries by `le`: always a permutation of them. */
  function SortBy(le: (string, string) -> bool, es: seq<Entry>): (r: seq<Entry>)
    ensures |r| == |es|
    ensures multiset(r) == multiset(es)
    decreases |es|
  {
    if |es| == 0 then []
    else
      assert es == es[..|es| - 1] + [es[|es| - 1]];
      InsertBy(le, es[|es| - 1], SortBy(le, es[..|es| - 1]))
  }

  /** Entries with the same multiset hold the same entries. */
  lemma SameEntries(s: seq<Entry>, t: seq<Entry>)
    requires multiset(s) == multiset(t)
    ensures forall x :: x in s <==> x in t
  {
    forall x ensures x in s <==> x in t {
      assert x in s <==> x in multiset(s);
      assert x in t <==> x in multiset(t);
    }
  }

  /** Sorting entries whose codes `le` orders puts them in that order. */
  lemma {:induction false} SortBySorted(le: (string, string) -> bool, cs: set<string>, es: seq<Entry>)
    requires OrdersCodes(le, cs) && CodesIn(es, cs)
    ensures SortedBy(le, SortBy(le, es))
    decreases |es|
  {
    if |es| > 0 {
      var init := es[..|es| - 1];
      assert CodesIn(init, cs) by {
        forall x | x in init ensures x.0 in cs {
          var m :| 0 <= m < |init| && init[m] == x;
          assert es[m] in es;
        }
      }
      SortBySorted(le, cs, init);
      SameEntries(init, SortBy(le, init));
      assert es[|es| - 1] in es;
      InsertBySorted(le, cs, es[|es| - 1], SortBy(le, init));
    }
  }

  /** No two entries share a code: true of every object's entries. */
  ghost predicate DistinctCodes(es: seq<Entry>) {
    forall i, j :: 0 <= i < j < |es| ==> es[i].0 != es[j].0
  }

  /** With distinct codes, no entry occurs twice. */
  lemma {:induction false} DistinctCodesOnce(s: seq<Entry>, x: Entry)
    requires DistinctCodes(s)
    ensures multiset(s)[x] <= 1
    decreases |s|
  {
    if |s| > 0 {
      assert s == [s[0]] + s[1..];
      assert DistinctCodes(s[1..]) by {
        forall i, j | 0 <= i < j < |s[1..]| ensures s[1..][i].0 != s[1..][j].0 {
          assert s[1..][i] == s[i + 1] && s[1..][j] == s[j + 1];
        }
      }
      DistinctCodesOnce(s[1..], x);
      if s[0] == x {
        assert x !in s[1..] by {
          forall k | 0 <= k < |s[1..]| ensures s[1..][k] != x {
            assert s[1..][k] == s[k + 1];
          }
        }
      }
    }
  }

  /** An entry at two places of a sequence occurs at least twice in it. */
  lemma OccursTwice(t: seq<Entry>, i: nat, j: nat)
    requires i < j < |t| && t[i] == t[j]
    ensures multiset(t)[t[i]] >= 2
  {
    assert t == t[..i] + [t[i]] + t[i + 1..j] + [t[j]] + t[j + 1..];
  }

  /** A reordering of entries with distinct codes has distinct codes. */
  lemma DistinctCodesPermutation(s: seq<Entry>, t: seq<Entry>)
    requires multiset(s) == multiset(t) && DistinctCodes(s)
    ensures DistinctCodes(t)
  {
    SameEntries(s, t);
    forall i, j | 0 <= i < j < |t| ensures t[i].0 != t[j].0 {
      if t[i].0 == t[j].0 {
        assert t[i] in t && t[j] in t;
        var m :| 0 <= m < |s| && s[m] == t[i];
        var n :| 0 <= n < |s| && s[n] == t[j];
        if m == n {
          OccursTwice(t, i, j);
          DistinctCodesOnce(s, t[i]);
        }
      }
    }
  }

  /** Equal multisets with equal first elements have equal multisets of tails. */
  lemma MultisetTails(s: seq<Entry>, t: seq<Entry>)
    requires |s| > 0 && |t| > 0 && s[0] == t[0] && multiset(s) == multiset(t)
    ensures multiset(s[1..]) == multiset(t[1..])
  {
    assert s == [s[0]] + s[1..] && t == [t[0]] + t[1..];
    assert multiset(s[1..]) == multiset(s) - multiset{s[0]};
    assert multiset(t[1..]) == multiset(t) - multiset{t[0]};
  }

  /** Two sorted orderings of the same entries, one of them with distinct codes, start alike. */
  lemma SortedHeadsAgree(le: (string, string) -> bool, cs: set<string>, s: seq<Entry>, t: seq<Entry>)
    requires |s| > 0 && multiset(s) == multiset(t) && OrdersCodes(le, cs) && CodesIn(s, cs)
    requires SortedBy(le, s) && SortedBy(le, t) && DistinctCodes(s)
    ensures |t| > 0 && s[0] == t[0]
  {
    SameEntries(s, t);
    assert s[0] in s;
    var j :| 0 <= j < |t| && t[j] == s[0];
    assert t[0] in t;
    var i :| 0 <= i < |s| && s[i] == t[0];
    assert le(s[0].0, s[0].0);
    assert le(s[0].0, t[0].0) && le(t[0].0, s[0].0);
    assert i == 0;
  }

  /** Sorting is unique for distinct codes: any two orderings of the same
      entries that `le` both allows, on codes it orders, are equal. Hence
      every correct sort routine, the browser's included, yields the
      entries `SortBy` yields. */
  lemma {:induction false} SortedPermutationUnique(le: (string, string) -> bool, cs: set<string>, s: seq<Entry>, t: seq<Entry>)
    requires multiset(s) == multiset(t) && OrdersCodes(le, cs) && CodesIn(s, cs)
    requires SortedBy(le, s) && SortedBy(le, t) && DistinctCodes(s)
    ensures s == t
    decreases |s|
  {
    if |s| == 0 {
      assert |multiset(t)| == 0;
    } else {
      SortedHeadsAgree(le, cs, s, t);
      MultisetTails(s, t);
      assert CodesIn(s[1..], cs) by {
        forall x | x in s[1..] ensures x.0 in cs {
          var m :| 0 <= m < |s[1..]| && s[1..][m] == x;
          assert s[m + 1] in s;
        }
      }
      assert SortedBy(le, t[1..]) by {
        forall i, j | 0 <= i < j < |t[1..]| ensures le(t[1..][i].0, t[1..][j].0) {
          assert t[1..][i] == t[i + 1] && t[1..][j] == t[j + 1];
        }
      }
      SortedPermutationUnique(le, cs, s[1..], t[1..]);
      assert s == [s[0]] + s[1..] && t == [t[0]] + t[1..];
    }
  }

  /** One row of the table: code, label, score (none shows as a dash), rationale and the four tips. */
  datatype Row = Row(code: string, name: JValue, score: Option<real>, why: JValue, tips: seq<JValue>)

  /** The row `renderTable` builds for one criterion. */
  function MakeRow(e: Entry): (r: Row)
    ensures r.code == e.0
    ensures r.score == ResolveScore(e.1)
    ensures |r.tips| == |TipRoles|
    ensures r.name == DisplayName(e.0, e.1) && r.why == Rationale(e.1) && r.tips == Tips(e.1)
  {
    ResolveScoreAgreesWithChains(e.1);
    Row(e.0, DisplayName(e.0, e.1), ResolveScoreGuarded(e.1), Rationale(e.1), Tips(e.1))
  }

  /** `row` is the row of some entry of `es`. */
  ghost predicate RowOfSome(row: Row, es: seq<Entry>) {
    exists k :: 0 <= k < |es| && row == MakeRow(es[k])
  }

  /** Some row of `rows` is the row of entry `e`. */
  ghost predicate HasRowOf(rows: seq<Row>, e: Entry) {
    exists i :: 0 <= i < |rows| && rows[i] == MakeRow(e)
  }

  /** Every code among the entries lies in one of the five buckets. */
  ghost predicate AllBucketCodes(es: seq<Entry>) {
    forall k :: 0 <= k < |es| ==> BucketOf(es[k].0).Some?
  }

  /** The rows of `renderTable(perCriterion)`: the entries sorted by the
      comparator as written, one row each. Every row is the row of some
      entry and every entry has its row. When the comparator orders the
      codes, the rows follow it, and on codes of the five buckets alone
      that is the table order. */
  function TableRows(pc: JValue): (rows: seq<Row>)
    ensures |rows| == |CriterionEntries(pc)|
    ensures forall i :: 0 <= i < |rows| ==> RowOfSome(rows[i], CriterionEntries(pc))
    ensures forall k :: 0 <= k < |CriterionEntries(pc)| ==> HasRowOf(rows, CriterionEntries(pc)[k])
    ensures OrdersCodes(WrittenLe, CodesOf(CriterionEntries(pc))) ==>
              forall i, j :: 0 <= i < j < |rows| ==> CompareAsWritten(rows[i].code, rows[j].code) <= 0
    ensures AllBucketCodes(CriterionEntries(pc)) ==>
              forall i, j :: 0 <= i < j < |rows| ==> CodeLe(rows[i].code, rows[j].code)
  {
    var es := CriterionEntries(pc);
    var order := SortBy(WrittenLe, es);
    RowsOfReordering(es, order);
    SortedAsWritten(es);
    RowsOf(order)
  }

  /** The entries sorted by the comparator as written are in its order
      whenever it orders their codes, and in table order when every code
      lies in a bucket. */
  lemma SortedAsWritten(es: seq<Entry>)
    ensures OrdersCodes(WrittenLe, CodesOf(es)) ==> SortedBy(WrittenLe, SortBy(WrittenLe, es))
    ensures AllBucketCodes(es) ==> SortedBy(CodeLe, SortBy(WrittenLe, es))
  {
    assert CodesIn(es, CodesOf(es)) by {
      forall x | x in es ensures x.0 in CodesOf(es) {
        var m :| 0 <= m < |es| && es[m] == x;
      }
    }
    if OrdersCodes(WrittenLe, CodesOf(es)) {
      SortBySorted(WrittenLe, CodesOf(es), es);
    }
    if AllBucketCodes(es) {
      var order := SortBy(WrittenLe, es);
      assert forall c :: c in CodesOf(es) ==> BucketOf(c).Some?;
      BucketCodesOrderedAsWritten(CodesOf(es));
      SortBySorted(WrittenLe, CodesOf(es), es);
      SameEntries(es, order);
      forall i, j | 0 <= i < j < |order| ensures CodeLe(order[i].0, order[j].0) {
        assert order[i] in es && order[j] in es;
        WrittenLeOnBuckets(order[i].0, order[j].0);
      }
    }
  }

  /** With codes of the five buckets only, all distinct, the rows as written
      are the rows of the entries sorted into table order. */
  lemma TableRowsMatchTableOrder(pc: JValue)
    requires AllBucketCodes(CriterionEntries(pc)) && DistinctCodes(CriterionEntries(pc))
    ensures TableRows(pc) == RowsOf(SortBy(CodeLe, CriterionEntries(pc)))
  {
    var es := CriterionEntries(pc);
    var cs := CodesOf(es);
    assert CodesIn(es, cs) by {
      forall x | x in es ensures x.0 in cs {
        var m :| 0 <= m < |es| && es[m] == x;
      }
    }
    var written := SortBy(WrittenLe, es);
    var corrected := SortBy(CodeLe, es);
    SortedAsWritten(es);
    CodeLeOrders(cs);
    SortBySorted(CodeLe, cs, es);
    SameEntries(es, corrected);
    assert CodesIn(corrected, cs);
    DistinctCodesPermutation(es, corrected);
    SortedPermutationUnique(CodeLe, cs, corrected, written);
  }

  /** The row of each entry, in the given order. */
  function RowsOf(order: seq<Entry>): (rows: seq<Row>)
    ensures |rows| == |order|
    ensures forall i :: 0 <= i < |rows| ==> rows[i] == MakeRow(order[i])
  {
    seq(|order|, i requires 0 <= i < |order| => MakeRow(order[i]))
  }

  /** A code outside the buckets is ordered against a bucket code by string
      order alone: A1 may come before P1, where the table order ranks P1 first. */
  lemma UnknownCodeComparesByString()
    ensures WrittenLe("A1", "P1") && !WrittenLe("P1", "A1")
    ensures CodeLe("P1", "A1") && !CodeLe("A1", "P1")
  {
    assert BucketOf("A1") == None && BucketOf("P1") == Some(P);
    assert LexLe("A1", "P1") && !LexLe("P1", "A1");
  }

  /** Sorting one entry leaves it alone. */
  lemma SortOne(le: (string, string) -> bool, e: Entry)
    ensures SortBy(le, [e]) == [e]
  {
    assert [e][..0] == [];
  }

  /** Sorted as written, an A1 entry comes before a P1 entry; sorted into
      table order, after it. */
  lemma UnknownCodeSortsByString(x: JValue, y: JValue)
    ensures SortBy(WrittenLe, [("P1", x), ("A1", y)]) == [("A1", y), ("P1", x)]
    ensures SortBy(CodeLe, [("P1", x), ("A1", y)]) == [("P1", x), ("A1", y)]
  {
    var es := [("P1", x), ("A1", y)];
    UnknownCodeComparesByString();
    assert es[..1] == [("P1", x)] && es[1] == ("A1", y);
    SortOne(WrittenLe, ("P1", x));
    SortOne(CodeLe, ("P1", x));
    assert SortBy(WrittenLe, es) == InsertBy(WrittenLe, ("A1", y), [("P1", x)]);
    assert SortBy(CodeLe, es) == InsertBy(CodeLe, ("A1", y), [("P1", x)]);
  }

  /** The table of `{P1: x, A1: y}` as written shows A1 first. */
  lemma UnknownCodeRowFirst(x: JValue, y: JValue)
    ensures var rows := TableRows(JObj([("P1", x), ("A1", y)]));
            |rows| == 2 && rows[0].code == "A1" && rows[1].code == "P1"
  {
    var es := [("P1", x), ("A1", y)];
    assert CriterionEntries(JObj(es)) == es;
    UnknownCodeSortsByString(x, y);
    RowsOfReordering(es, SortBy(WrittenLe, es));
  }

  /** The rows of a reordering of `es` are as many as the entries, each is
      the row of some entry, every entry has its row, and each row carries
      the code of the entry at its place. */
  lemma RowsOfReordering(es: seq<Entry>, order: seq<Entry>)
    requires multiset(order) == multiset(es)
    ensures var rows := RowsOf(order);
            && |rows| == |es|
            && (forall i :: 0 <= i < |rows| ==> rows[i].code == order[i].0)
            && (forall i :: 0 <= i < |rows| ==> RowOfSome(rows[i], es))
            && (forall k :: 0 <= k < |es| ==> HasRowOf(rows, es[k]))
  {
    var rows := RowsOf(order);
    assert |order| == |multiset(order)| == |multiset(es)| == |es|;
    forall i | 0 <= i < |rows|
      ensures RowOfSome(rows[i], es)
    {
      assert order[i] in multiset(es);
      var k :| 0 <= k < |es| && es[k] == order[i];
    }
    forall k | 0 <= k < |es|
      ensures HasRowOf(rows, es[k])
    {
      assert es[k] in multiset(order);
      var i :| 0 <= i < |order| && order[i] == es[k];
      assert rows[i] == MakeRow(order[i]);
    }
  }
}

=== FILE: totals.dfy ===
/** The headline numbers of `renderAll` (app-v2.js): the overall total on the
    0-100 scale, with its fallback from the criterion scores, and the
    per-image totals with their scale-guessing heuristic `scale100`. */
module Totals {
  import opened Wrappers
  import opened JsValue
  import opened Rubric
  import opened Score
  import opened Buckets

  /** The largest value `scale100` still reads as a score on the 1-5 scale. */
  const ScaleThreshold: real := 5.0001

  /** The score assumed for the overall total when no criterion resolves: the middle of 1-5. */
  const MidScore: real := 3.0

  /** The linear map from the 1-5 scale onto 0-100, `(avg - 1) / 4 * 100`. */
  function ToHundred(avg: real): real {
    (avg - 1.0) / 4.0 * 100.0
  }

  /** The 1-5 score a 0-100 total stands for. */
  function FromHundred(t: real): real {
    1.0 + t / 25.0
  }

  /** The two scales correspond one to one: 1 is 0, 3 is 50, 5 is 100, and the map preserves order. */
  lemma ScaleCorrespondence(x: real, y: real)
    ensures FromHundred(ToHundred(x)) == x && ToHundred(FromHundred(x)) == x
    ensures ToHundred(1.0) == 0.0 && ToHundred(MidScore) == 50.0 && ToHundred(5.0) == 100.0
    ensures x <= y <==> ToHundred(x) <= ToHundred(y)
  {
  }

  /** The resolved scores among `vs`, in order: `.map(resolve).filter(v => typeof v === 'number')`. */
  function ResolvedScores(vs: seq<JValue>): (r: seq<real>)
    ensures |r| <= |vs|
    decreases |vs|
  {
    if |vs| == 0 then []
    else
      var last := vs[|vs| - 1];
      ResolvedScores(vs[..|vs| - 1]) + (if ResolveScore(last).Some? then [ResolveScore(last).value] else [])
  }

  /** Every resolved score is the score of some value, and every value's score is among them. */
  lemma ResolvedScoresMembers(vs: seq<JValue>, x: real)
    ensures x in ResolvedScores(vs) <==> exists i :: 0 <= i < |vs| && ResolveScore(vs[i]) == Some(x)
  {
    if x in ResolvedScores(vs) {
      ResolvedScoresSound(vs, x);
    }
    if exists i :: 0 <= i < |vs| && ResolveScore(vs[i]) == Some(x) {
      var i :| 0 <= i < |vs| && ResolveScore(vs[i]) == Some(x);
      ResolvedScoresComplete(vs, i);
    }
  }

  /** A resolved score comes from some value. */
  lemma {:induction false} ResolvedScoresSound(vs: seq<JValue>, x: real)
    requires x in ResolvedScores(vs)
    ensures exists i :: 0 <= i < |vs| && ResolveScore(vs[i]) == Some(x)
    decreases |vs|
  {
    var init := vs[..|vs| - 1];
    var last := vs[|vs| - 1];
    var tail := if ResolveScore(last).Some? then [ResolveScore(last).value] else [];
    assert ResolvedScores(vs) == ResolvedScores(init) + tail;
    if x in ResolvedScores(init) {
      ResolvedScoresSound(init, x);
      var i :| 0 <= i < |init| && ResolveScore(init[i]) == Some(x);
      assert vs[i] == init[i];
    } else {
      assert x in tail;
      assert ResolveScore(vs[|vs| - 1]) == Some(x);
    }
  }

  /** The score of every value that resolves is among the resolved scores. */
  lemma {:induction false} ResolvedScoresComplete(vs: seq<JValue>, i: nat)
    requires i < |vs| && ResolveScore(vs[i]).Some?
    ensures ResolveScore(vs[i]).value in ResolvedScores(vs)
    decreases |vs|
  {
    var init := vs[..|vs| - 1];
    var last := vs[|vs| - 1];
    var tail := if ResolveScore(last).Some? then [ResolveScore(last).value] else [];
    assert ResolvedScores(vs) == ResolvedScores(init) + tail;
    if i < |init| {
      assert init[i] == vs[i];
      ResolvedScoresComplete(init, i);
    } else {
      assert tail == [ResolveScore(vs[i]).value];
    }
  }

  /** The explicit total the answer carries, `(data.aggregate || {}).total_weighted`. */
  function ExplicitTotal(data: JValue): JValue {
    Get(Or(Get(data, "aggregate"), JObj([])), "total_weighted")
  }

  /** The resolved scores of the answer's top-level `per_criterion`. */
  function TopLevelScores(data: JValue): seq<real> {
    ResolvedScores(Values(Get(data, "per_criterion")))
  }

  /** The overall total of `renderAll`: a numeric explicit total unchanged;
      otherwise, when the answer has a top-level `per_criterion`, the mean of
      its resolved scores (the middle score 3 when none resolves) carried
      onto 0-100; otherwise none. */
  function OverallTotal(data: JValue): (r: Option<real>)
    ensures ExplicitTotal(data).JNum? ==> r == Some(ExplicitTotal(data).n)
    ensures !ExplicitTotal(data).JNum? ==> (r.Some? <==> Truthy(Get(data, "per_criterion")))
    ensures !ExplicitTotal(data).JNum? && r.Some? ==>
              FromHundred(r.value) == (if |TopLevelScores(data)| > 0 then Mean(TopLevelScores(data)) else MidScore)
  {
    var tw := ExplicitTotal(data);
    if tw.JNum? then Some(tw.n)
    else if Truthy(Get(data, "per_criterion")) then
      var vals := ResolvedScores(Values(Get(data, "per_criterion")));
      var avg := if |vals| > 0 then Sum(vals) / (|vals| as real) else MidScore;
      Some(ToHundred(avg))
    else None
  }

  /** With no explicit total and no resolvable criterion score, the total is 50. */
  lemma TotalWithoutScores(data: JValue)
    requires !ExplicitTotal(data).JNum? && Truthy(Get(data, "per_criterion"))
    requires forall i :: 0 <= i < |Values(Get(data, "per_criterion"))| ==>
               ResolveScore(Values(Get(data, "per_criterion"))[i]).None?
    ensures OverallTotal(data) == Some(50.0)
  {
    var vs := Values(Get(data, "per_criterion"));
    if |ResolvedScores(vs)| > 0 {
      var x := ResolvedScores(vs)[0];
      ResolvedScoresMembers(vs, x);
    }
  }

  /** Scores on the 1-5 scale give a fallback total on the 0-100 scale. */
  lemma TotalWithinScale(data: JValue)
    requires !ExplicitTotal(data).JNum? && Truthy(Get(data, "per_criterion"))
    requires forall i :: 0 <= i < |Values(Get(data, "per_criterion"))| ==>
               var s := ResolveScore(Values(Get(data, "per_criterion"))[i]);
               s.Some? ==> 1.0 <= s.value <= 5.0
    ensures OverallTotal(data).Some? && 0.0 <= OverallTotal(data).value <= 100.0
  {
    var vs := Values(Get(data, "per_criterion"));
    var vals := ResolvedScores(vs);
    if |vals| > 0 {
      forall k | 0 <= k < |vals| ensures 1.0 <= vals[k] <= 5.0 {
        ResolvedScoresMembers(vs, vals[k]);
      }
      MeanBounds(vals, 1.0, 5.0);
    }
  }

  /** When every criterion score resolves to the same `c`, the fallback total
      is `c` carried onto 0-100: twenty fives give 100. */
  lemma TotalOfUniformScores(data: JValue, c: real)
    requires !ExplicitTotal(data).JNum? && Truthy(Get(data, "per_criterion"))
    requires |Values(Get(data, "per_criterion"))| > 0
    requires forall i :: 0 <= i < |Values(Get(data, "per_criterion"))| ==>
               ResolveScore(Values(Get(data, "per_criterion"))[i]) == Some(c)
    ensures OverallTotal(data) == Some(ToHundred(c))
    ensures c == 5.0 ==> OverallTotal(data) == Some(100.0)
  {
    var vs := Values(Get(data, "per_criterion"));
    var vals := ResolvedScores(vs);
    ResolvedScoresMembers(vs, c);
    assert ResolveScore(vs[0]) == Some(c);
    forall k | 0 <= k < |vals| ensures vals[k] == c {
      ResolvedScoresMembers(vs, vals[k]);
    }
    MeanConst(vals, c);
  }

  /** Without an explicit total, the top-level `per_criterion` alone feeds the
      total: an answer whose scores sit only under `aggregate.per_criterion`
      has no total at all. */
  lemma TotalIgnoresAggregateScores(pc: JValue)
    ensures OverallTotal(JObj([("aggregate", JObj([("per_criterion", pc)]))])) == None
  {
    var agg := JObj([("per_criterion", pc)]);
    assert "per_criterion"[0] != "aggregate"[0];
    assert "total_weighted"[0] != "per_criterion"[0];
    assert Get(agg, "total_weighted") == JUndefined;
  }

  /** `scale100(x)`: a number up to the threshold is read as a 1-5 score and
      carried onto 0-100; a larger number is taken to be on 0-100 already;
      anything else has no value. */
  function Scale100(x: JValue): (r: Option<real>)
    ensures !x.JNum? ==> r == None
    ensures x.JNum? && x.n > ScaleThreshold ==> r == Some(x.n)
    ensures x.JNum? && x.n <= ScaleThreshold ==> r.Some? && FromHundred(r.value) == x.n
    ensures x.JNum? && 1.0 <= x.n <= 5.0 ==> r.Some? && 0.0 <= r.value <= 100.0
  {
    if !x.JNum? then None
    else if x.n <= ScaleThreshold then Some(ToHundred(x.n))
    else Some(x.n)
  }

  /** The heuristic's documented readings, and a missing total read as 0. */
  lemma Scale100Examples()
    ensures Scale100(JNum(4.5)) == Some(87.5)
    ensures Scale100(JNum(87.5)) == Some(87.5)
    ensures Scale100(JNum(5.0)) == Some(100.0)
    ensures Scale100(JNum(0.0)) == Some(-25.0)
    ensures Scale100(JStr("80")) == None
  {
  }

  /** The heuristic is not monotone at its threshold: a value just above it
      reads lower than one just below it. */
  lemma Scale100NotMonotone()
    ensures Scale100(JNum(5.0001)).value > Scale100(JNum(5.0002)).value
  {
  }

  /** The three fields that may hold a per-image total, in the order tried. */
  const PerImageFields: seq<string> := ["total_weighted", "total", "avg"]

  /** `it.total_weighted ?? it.total ?? it.avg ?? 0`: the first of the fields
      that is neither `null` nor `undefined`, else the number 0. */
  function PerImageRaw(it: JValue): (r: JValue)
    ensures (exists k :: 0 <= k < |PerImageFields| && !IsNullish(Get(it, PerImageFields[k]))) ==>
              exists k :: 0 <= k < |PerImageFields| && r == Get(it, PerImageFields[k])
                          && forall j :: 0 <= j < k ==> IsNullish(Get(it, PerImageFields[j]))
    ensures (forall k :: 0 <= k < |PerImageFields| ==> IsNullish(Get(it, PerImageFields[k]))) ==> r == JNum(0.0)
  {
    assert PerImageFields[0] == "total_weighted" && PerImageFields[1] == "total" && PerImageFields[2] == "avg";
    Coalesce(Get(it, "total_weighted"), Coalesce(Get(it, "total"), Coalesce(Get(it, "avg"), JNum(0.0))))
  }

  /** Whether a per-image item carries any total at all. */
  predicate HasPerImageTotal(it: JValue) {
    exists k :: 0 <= k < |PerImageFields| && !IsNullish(Get(it, PerImageFields[k]))
  }

  /** The per-image total as `renderAll` computes it: `scale100(raw) || 0`. */
  function PerImageTotalAsWritten(it: JValue): real {
    Scale100(PerImageRaw(it)).GetOr(0.0)
  }

  /** As written, an item without any total shows -25, because the default 0
      is fed to `scale100` and read as a 1-5 score below the scale. */
  lemma MissingPerImageTotalShowsMinus25(it: JValue)
    requires !HasPerImageTotal(it)
    ensures PerImageTotalAsWritten(it) == -25.0
  {
  }

  /** A concrete item that shows the discrepancy: a pose and no total. */
  lemma MissingPerImageTotalExample()
    ensures PerImageTotalAsWritten(JObj([("pose", JStr("front"))])) == -25.0
  {
    var it := JObj([("pose", JStr("front"))]);
    assert "pose"[0] != "total_weighted"[0] && "pose"[0] != "total"[0] && "pose"[0] != "avg"[0];
    assert !HasPerImageTotal(it);
  }

  /** The per-image total with the evident intent of `(v || 0)`: an item with
      no total shows 0; an item with a total shows it on the 0-100 scale as
      `scale100` reads it, and a non-numeric total shows 0. */
  function PerImageTotal(it: JValue): (r: real)
    ensures !HasPerImageTotal(it) ==> r == 0.0
    ensures HasPerImageTotal(it) ==> r == PerImageTotalAsWritten(it)
    ensures HasPerImageTotal(it) && PerImageRaw(it).JNum? && 1.0 <= PerImageRaw(it).n <= 5.0 ==> 0.0 <= r <= 100.0
  {
    assert PerImageFields[0] == "total_weighted" && PerImageFields[1] == "total" && PerImageFields[2] == "avg";
    if IsNullish(Get(it, "total_weighted")) && IsNullish(Get(it, "total")) && IsNullish(Get(it, "avg")) then 0.0
    else Scale100(PerImageRaw(it)).GetOr(0.0)
  }
}

=== FILE: wrappers.dfy ===
/** Option and Result: the failure-carrying datatypes the rest of the model uses
    for "no value" (JavaScript's `null`) and for thrown exceptions. */
module Wrappers {

  /** A value that may be absent. */
  datatype Option<+T> = None | Some(value: T) {

    /** The value, or `default` when absent (JavaScript's `x ?? default` on a nullable number). */
    function GetOr(default: T): T {
      match this
      case Some(v) => v
      case None => default
    }
  }

  /** The outcome of an operation that may throw: either its value or the exception's message. */
  datatype Result<+R, +E> = Success(value: R) | Failure(error: E)
}
